=== FILE: README.md ===
# Optimized-Memory-Allocator, modelled in Dafny

This project models the two allocators of the repository, with every pointer replaced
by an integer address and every memory read replaced by a value carried in the model.

- **The global free-list allocator (`hmem.c`).** Free memory is one address-ordered,
  singly linked list of nodes. Each node is `(addr, size)`, and `size` excludes the
  node's own 16-byte `node_t`.
  - `insert_node` puts a node in address order.
  - `coalesce_free_list` merges nodes that touch.
  - `find_cell_for_space` unlinks the first node that is strictly larger than a request.
  - `hmalloc` carves the block it returns from the front of that node, or from a fresh
    4096-byte page. Large requests get whole pages.
  - An 8-byte header in front of every live block records its size. `hfree` routes the
    block on that header.
  - Modules: `FreeList` holds the list operations. `GlobalHeap` holds `hmalloc`, `hfree`,
    `hgetstats` and `hrealloc` with their statistics counters. The headers live in a
    map from header address to recorded size.
- **The segregated arena (`par_malloc.c`).** Eleven bucket lists hold power-of-two blocks
  of 8 to 8192 bytes, each behind a 24-byte `node_t`.
  - A request is rounded up to a power of two and served from its bucket.
  - When that bucket is empty, the allocator borrows a block from a larger bucket. It
    splits the leftover greedily into power-of-two fragments, and discards a leftover
    under 40 bytes.
  - Modules: `Rounding` holds the integer helpers and the size-class mapping. `Arena`
    holds the bucket operations, the borrow and split, and `xmalloc`/`xfree`/`xrealloc`.
    `ArenaInit` holds the layout `initialize_arena` carves out of its 3 686 400-byte
    region.
  - An arena is a sequence of eleven sequences of `Block(addr, size)`, head first.
- **Shared helpers.** `Powers` (integer `2^k` and floor log2) and `Wrappers`
  (`Option`, and `Result` whose error case is a process exit with a status).

Classification follows the code. `xmalloc` rounds the request up before taking the
logarithm. So a request strictly between `2^k` and `2^(k+1)` goes to bucket `k − 2`, not
`k − 3`. Only exact powers of two land in bucket `log2(s) − 3`. This is what
`Rounding.ClassifyBand` states. A description of the bucket as `floor(log2 s) − 3` for
every `s` in `[2^k, 2^(k+1))` disagrees with this code, and the model follows the code.

## Model

| member | source | states |
|---|---|---|
| `Powers.Log2` | par_malloc.c:96-101 | the integer log2 `get_bucket` relies on: `2^r <= n < 2^(r+1)` |
| `Rounding.GetBucket` | par_malloc.c:96-101 | the index is at least −3 and `2^(i+3) <= byte < 2^(i+4)`: the floor of log2 less 3 |
| `FreeList.Coalesce` | hmem.c:28-48 | merging never lengthens the list, keeps the head's address, and leaves no node whose successor starts exactly at its end |
| `FreeList.CoalesceConservesBytes` | hmem.c:36-45 | coalescing keeps the total bytes covered, counting 16 per node plus its size |
| `FreeList.CoalesceKeepsOrder` | hmem.c:36-45 | a strictly address-ordered list stays strictly ordered after coalescing |
| `FreeList.CoalesceKeepsDisjoint` | hmem.c:36-45 | nodes that do not overlap still do not overlap after coalescing |
| `FreeList.CoalesceSeparates` | hmem.c:28-48 | an ordered, non-overlapping list becomes one where every node ends strictly before the next begins |
| `FreeList.CoalesceKeepsCover` | hmem.c:36-45 | a byte lies in some node after coalescing exactly when it did before, so merging never closes a gap between nodes that do not touch |
| `FreeList.CoalesceCoalesced` | hmem.c:36-45 | a list in which no node touches its successor comes back unchanged |
| `FreeList.CoalesceIdempotent` | hmem.c:28-48 | coalescing an already coalesced list changes nothing |
| `FreeList.CoalesceKeepsFit` | hmem.c:36-45 | a range that overlaps no free node still overlaps none after coalescing |
| `FreeList.CoalesceStep` | hmem.c:36-45 | one pass of the loop either merges the candidate with the node that starts at its end or moves past it; the nodes passed plus the coalesced rest stay the same, and the rest shrinks |
| `FreeList.CoalesceFreeList` | hmem.c:28-48 | the in-place loop computes the coalesced list, and lists of zero or one node come back unchanged |
| `FreeList.InsertionPoint` | hmem.c:55-70 | the scan stops no further than the list's end, and a node it stops at lies strictly above the new node's address |
| `FreeList.InsertionPointIsFirst` | hmem.c:55-70 | every node the scan walks past lies at or below the new node's address; the node it stops at lies above it |
| `FreeList.InsertOrdered` | hmem.c:51-76 | the new node goes in just before the first node at a higher address, with the nodes before and after it kept in order |
| `FreeList.InsertOrderedContents` | hmem.c:51-76 | the result holds the old nodes plus the new one, and its byte total grows by the new node's 16 + size |
| `FreeList.InsertOrderedKeepsOrder` | hmem.c:51-76 | inserting an address not yet present keeps a strictly ordered list strictly ordered |
| `FreeList.InsertOrderedKeepsDisjoint` | hmem.c:51-76 | inserting a node that overlaps no free node keeps the nodes pairwise non-overlapping |
| `FreeList.InsertOrderedKeepsFit` | hmem.c:51-76 | linking in a node that stays clear of a range keeps the whole list clear of that range |
| `FreeList.InsertNode` | hmem.c:51-78 | the list gains exactly the new node's 16 + size bytes |
| `FreeList.InsertOrderedCover` | hmem.c:51-76 | a byte lies in some node after the ordered insert exactly when it lay in one before or lies in the new node; sizes stay non-negative |
| `FreeList.InsertNodeCover` | hmem.c:51-78 | `insert_node` covers exactly the old bytes plus the new node's: nothing else is freed and no gap is closed |
| `FreeList.InsertNodeKeepsFit` | hmem.c:51-78 | `insert_node` of a node clear of a range keeps the list clear of that range |
| `FreeList.InsertNodeProperties` | hmem.c:51-78 | `insert_node` (insert, then coalesce) keeps order, adds exactly the new node's bytes and leaves the list coalesced |
| `FreeList.InsertNodeSeparates` | hmem.c:51-78 | inserting a fitting node into a well-separated list keeps every gap between nodes strictly positive |
| `FreeList.FirstFit` | hmem.c:84-100 | the index is at most the list length, and inside the list it is that of a node strictly larger than the requirement |
| `FreeList.FirstFitIsFirst` | hmem.c:88-99 | no node before the first fit is larger than the requirement, so an exact-size node is passed over |
| `FreeList.FindCellForSpace` | hmem.c:84-103 | returns the first-fit node and the list without it, the other nodes in their order; with no fit it returns nothing and the list unchanged |
| `FreeList.UnlinkBytes` | hmem.c:90-94 | unlinking a node removes exactly its 16 + size bytes from the total |
| `FreeList.UnlinkKeepsSeparated` | hmem.c:90-94 | unlinking a node from a well-separated list keeps it well separated |
| `FreeList.UnlinkedRangeFits` | hmem.c:173-180 | any range inside an unlinked node, such as its leftover tail, overlaps none of the remaining free nodes |
| `FreeList.FreeListLength` | hmem.c:105-118 | the list left behind is the coalesced list and the count is its length: the old node count less one per pair of neighbours that touch, so at most the old count, zero exactly for an empty list and unchanged for one node; the list is coalesced, holds the same bytes, keeps address order, and (when no size is negative) a byte lies in some node after the call exactly when it did before |
| `FreeList.CoalesceCount` | hmem.c:28-48 | coalescing removes exactly one node per pair of consecutive nodes that touch |
| `FreeList.CoalesceCoversAll` | hmem.c:28-48 | for a list with no negative size, every byte lies in some node after coalescing exactly when it did before |
| `GlobalHeap.DivUp` | hmem.c:139-153 | ceiling division: `r*y >= x` and `(r-1)*y < x` |
| `GlobalHeap.Tail` | hmem.c:173-178 | the leftover node starts `size` bytes into the node it is cut from and ends exactly where that node ends |
| `GlobalHeap.PageNode` | hmem.c:186-199 | a fresh page seen as one node starts at the mapping and ends 4096 bytes later |
| `GlobalHeap.ReturnNodeTail` | hmem.c:173-181 | with more than 16 bytes left, the list is `insert_node` of the tail node cut `size` bytes into the chosen node, and its bytes grow by that node's 16 + size; otherwise the list stays as it is |
| `GlobalHeap.ReturnPageTail` | hmem.c:192-205 | with `4096 - size > 16`, the list is `insert_node` of the tail node cut `size` bytes into the page, and it gains `4096 - size` bytes; otherwise the list stays as it is |
| `GlobalHeap.HMalloc` | hmem.c:155-235 | one more chunk allocated; only the new block's header is written, every other header kept; a small header records the request; a small block comes from the first-fit node or else a fresh page (one page mapped); a large one records and maps `div_up(request+8, 4096)` pages |
| `GlobalHeap.HMallocKeepsHeaders` | hmem.c:155-235 | the header addresses after an allocation are the old ones plus the new block's, and each old one still records the size it recorded, as `hfree` expects |
| `GlobalHeap.HMallocFromFreeList` | hmem.c:166-183 | the payload starts 8 bytes into the first fit; the leftover starts where the request's bytes end and ends where the fit ended; it goes back through `insert_node` exactly when its size exceeds 16, or else the list is the fit unlinked; the bytes change accordingly |
| `GlobalHeap.SplitNode` | hmem.c:169-181 | carving `request + 8` bytes from the front of a free node and returning the tail splits the node as the row above states |
| `GlobalHeap.HMallocFromFreshPage` | hmem.c:186-211 | the payload starts 8 bytes into the page; the leftover starts where the request's bytes end and ends with the page; it goes back through `insert_node` exactly when `4096 - size > 16`, or else the list is unchanged |
| `GlobalHeap.SplitPage` | hmem.c:192-210 | carving `request + 8` bytes from the front of a fresh page and returning the tail splits the page as the row above states |
| `GlobalHeap.HMallocLargeRecords` | hmem.c:217-231 | a large header records a whole number of pages, at least one, and less than one page more than header plus request |
| `GlobalHeap.HMallocSmallList` | hmem.c:164-211 | a small request leaves the free list with the first-fit node unlinked and its leftover returned, or, with no fit, with the fresh page's leftover returned |
| `GlobalHeap.InsertFitKeepsWellFormed` | hmem.c:51-78 | inserting a node that overlaps no free node keeps the list non-negative and well separated |
| `GlobalHeap.ReturnNodeTailKeepsWellFormed` | hmem.c:166-181 | carving from a free node and returning its tail keeps the list non-negative and well separated |
| `GlobalHeap.ReturnPageTailKeepsWellFormed` | hmem.c:192-204 | returning the tail of a page that overlaps no free node keeps the list well separated |
| `GlobalHeap.HMallocKeepsWellFormed` | hmem.c:155-235 | `hmalloc` keeps the free list well separated, given a fresh page that overlaps no free node |
| `GlobalHeap.HMallocBlockClear` | hmem.c:164-211 | after a small `hmalloc` on a well-formed list, with a fresh page that overlaps no free node, the block as `hfree` will insert it overlaps no free node |
| `GlobalHeap.HMallocFitClear` | hmem.c:166-183 | the same when the block came from a free node: the leftover is returned behind the block, never over it |
| `GlobalHeap.HMallocPageClear` | hmem.c:186-211 | the same when the block is the head of a fresh page |
| `GlobalHeap.FitSplitClear` | hmem.c:173-181 | a split free node leaves its handed-out part clear of the remaining nodes and of the returned leftover |
| `GlobalHeap.PageSplitClear` | hmem.c:192-203 | a split page leaves its handed-out part clear of the free list and of the returned leftover |
| `GlobalHeap.HFree` | hmem.c:239-259 | one more chunk freed; a block recording less than a page returns its 8 + recorded bytes to a coalesced list; anything else unmaps `div_up(recorded, 4096)` pages and leaves the list alone |
| `GlobalHeap.HFreeKeepsWellFormed` | hmem.c:245-258 | a small block that overlaps no free node goes back without breaking the list's separation; a large block leaves the list alone |
| `GlobalHeap.HMallocReadyToFree` | hmem.c:155-252 | a small `hmalloc` on a well-formed list leaves a header recording the request, a well-formed list, and a block clear of every free node: exactly what `HFreeKeepsWellFormed` needs |
| `GlobalHeap.HFreeSmall` | hmem.c:240-252 | freeing a block whose header records a small request links in the node at the header of size request − 8, bumps only `chunks_freed`, and unmaps nothing |
| `GlobalHeap.HFreeAfterHMallocSmall` | hmem.c:164-252 | a small block comes back to the free list as a node at its header of size request − 8, nothing is unmapped, and each counter rises by one |
| `GlobalHeap.HFreeAfterHMallocLarge` | hmem.c:213-258 | a large block unmaps exactly the pages its allocation mapped, the free list is untouched, and each counter rises by one |
| `GlobalHeap.HGetStats` | hmem.c:120-125 | the heap's list becomes the coalesced list and the recorded free length is its length, the old length less one per touching pair; bytes are kept and (when no size is negative) so is every covered byte; the headers and every other counter are unchanged |
| `GlobalHeap.HRealloc` | hmem.c:261-275 | as written: returns `hmalloc`'s pointer and maps the pages and writes the headers `hmalloc` does, then pushes the old block on the free list itself through `insert_node`, as the node at its header of size recorded − 8, so `chunks_freed` and `pages_unmapped` never move and the list gains 8 + recorded bytes, starting at the old header |
| `GlobalHeap.HReallocCover` | hmem.c:261-272 | the bytes `hrealloc` leaves free are exactly those `hmalloc` left free plus the range from `prev − 8` up to `prev + recorded`; for a block carved from a page that range is the block, header included |
| `GlobalHeap.HReallocLargeOverrun` | hmem.c:261-272 | for a block mapped from whole pages, whose header records the mapping's full length, the first byte past the mapping ends up on the free list |
| `Rounding.GrowToCover` | par_malloc.c:218-220 | the doubling loop stops at a power of two covering `num`, and it does not overshoot: its half is below `num` unless it never doubled |
| `Rounding.RoundPowerOfTwo` | par_malloc.c:214-222 | a power of two that is at least 8 and at least `num`, and either 8 or with half below `num` |
| `Rounding.ShrinkToFit` | par_malloc.c:144-146 | the halving loop stops at a power of two not above `num`, and its double exceeds `num` unless it never halved |
| `Rounding.RoundDownTwo` | par_malloc.c:141-148 | a power of two at most `num` and at most 8192, either 8192 or with double above `num`; at least 32 when `num >= 40` |
| `Rounding.AddPages` | par_malloc.c:152-154 | the page loop stops at a page multiple covering `num`, less than one page past it unless it never stepped |
| `Rounding.RoundUpNearestPage` | par_malloc.c:150-156 | the least multiple of 4096 that is at least both `num` and 4096 |
| `Rounding.GetBucketOfClass` | par_malloc.c:89-101 | `get_bucket(2^(i+3)) == i`, the documented size-to-index relation |
| `Rounding.GetBucketOfPow2` | par_malloc.c:74-101 | each power of two from 8 to 8192 maps to a bucket in 0..10 whose class size is that power |
| `Rounding.Classify` | par_malloc.c:234 | the bucket of a request is that of its rounded size, whose class size covers the request |
| `Rounding.ClassifyBand` | par_malloc.c:234 | a request above `2^k` and at most `2^(k+1)` (k ≥ 3) goes to bucket `k − 2` |
| `Rounding.ClassifySmall` | par_malloc.c:214-222 | requests of at most 8 bytes go to bucket 0 |
| `Rounding.ClassifyBoundary` | par_malloc.c:234-235 | 8192 bytes go to bucket 10, the arena path; 8193 bytes go to 11, the large path |
| `Arena.PlaceInBucket` | par_malloc.c:158-163 | the block becomes the head of the bucket whose class is the largest power of two not above its size, the old list follows it, and all other buckets are unchanged |
| `Arena.PopBucket` | par_malloc.c:258-259 | the block taken is from that bucket, the bucket shrinks by one, and the others are unchanged |
| `Arena.PopAfterPlace` | par_malloc.c:158-163 | popping the bucket just pushed to gives back the arena and the block |
| `Arena.PlaceAfterPop` | par_malloc.c:256-262 | in a well-classed arena, pushing back a popped head lands in the same bucket and restores the arena |
| `Arena.PlaceConserves` | par_malloc.c:158-163 | the arena gains exactly that block and its size |
| `Arena.PlaceKeepsClasses` | par_malloc.c:158-163 | a power-of-two block lands in the bucket of its own class |
| `Arena.PopConserves` | par_malloc.c:258-259 | popping removes exactly the head block and its size, and keeps every block in its own class |
| `Arena.XFree` | par_malloc.c:269-278 | the arena gains exactly the block whose header sits 24 bytes below `ptr`; that block becomes the head of the bucket of its size, in front of the old list, and hands back `ptr`; every other bucket is unchanged |
| `Arena.Search` | par_malloc.c:169-176 | the loop from candidate `t` finds the first non-empty candidate bucket, or none exactly when all are empty |
| `Arena.FindDonor` | par_malloc.c:169-176 | the donor is the lowest non-empty bucket among `index+1..9`, or bucket 10 only as the first candidate; there is none exactly when all candidates are empty |
| `Arena.Fragments` | par_malloc.c:191-208 | every fragment is a power of two in [32, 8192], placed back to back from `at`; none exactly when under 40 bytes remain; the slack left is under 40 |
| `Arena.SplitTail` | par_malloc.c:182-197 | there are fragments exactly when the spare bytes reach 40, and the first starts where the handed block ends and lies within the donor |
| `Arena.FragmentsCutBy` | par_malloc.c:191-208 | every fragment's size is the cutting rule applied to what is left when it is cut, 40 bytes or more being left then |
| `Arena.CutAt` | par_malloc.c:198-207 | in a run cut by a rule, block `j` is cut from what the blocks before it leave, and at least 40 bytes are left then |
| `Arena.FragmentsGreedy` | par_malloc.c:191-208 | the split is greedy: fragment `j` has size `round_down_two(remaining − sizes of fragments 0..j−1)`, with at least 40 bytes left then |
| `Arena.CutByGreedy` | par_malloc.c:193-207 | a run cut by `round_down_two` is greedy in that sense |
| `Arena.RoundDownAt` | par_malloc.c:204 | in a run cut by `round_down_two`, block `j` follows the greedy rule |
| `Arena.PushAll` | par_malloc.c:195-207 | pushing the fragments one by one adds exactly them to the arena |
| `Arena.PushAllConserves` | par_malloc.c:195-207 | pushing the fragments adds exactly them and their sizes to the arena |
| `Arena.PushAllKeepsClasses` | par_malloc.c:195-207 | each fragment lands in the bucket of its own size |
| `Arena.GetBiggerBlockForBucket` | par_malloc.c:166-212 | exits with −1 exactly when no candidate has a block; otherwise hands out a block of size `2^(index+4)` at the donor's address |
| `Arena.GetBiggerWithinDonor` | par_malloc.c:179-195 | in a well-classed arena the handed block lies inside the donor and the arena stays well classed |
| `Arena.GetBiggerAccounting` | par_malloc.c:179-208 | the donor leaves the arena, and exactly the split fragments come in; a discarded remainder loses all the donor's size, a split loses block + 24 + less than 40 |
| `Arena.FragmentsOverrunDonor` | par_malloc.c:196-205 | splitting a 512-byte donor for a 16-byte block gives three fragments, the last ending 24 bytes past the donor |
| `Arena.XMalloc` | par_malloc.c:225-267 | large path exactly past bucket 10, mapping whole pages covering request + 24; exits exactly when the class bucket and all donors are empty; a hit pops the class bucket's head; a miss returns the arena and block of `get_bigger_block_for_bucket` |
| `Arena.LargeClass` | par_malloc.c:234-235 | a request sent to the large path exceeds 8192 bytes |
| `Arena.XMallocHit` | par_malloc.c:256-262 | a hit returns a block of the request's class, at least the request in size, and freeing it at once restores the arena |
| `Arena.XMallocBorrow` | par_malloc.c:248-252 | when the class bucket is empty and some donor has a block, `xmalloc` succeeds; the borrowed block is of the class one above the request's, and freeing it files it one bucket above; it is the front of the donor, and the arena loses the donor and gains exactly the fragments split from it |
| `Arena.XRealloc` | par_malloc.c:280-295 | exits exactly when `xmalloc` does, returns `xmalloc`'s pointer, and the old block, at `prev − 24` with size `prev_size − 8`, becomes the head of the bucket of that size in front of the list `xmalloc` left there; every other bucket is as `xmalloc` left it |
| `Arena.MisfiledSize` | par_malloc.c:283-292 | for a class `i ≥ 2`, the size `2^(i+3) − 8` maps to bucket `i − 1` but is not that bucket's class size |
| `Arena.XReallocMisfiles` | par_malloc.c:283-292 | a block of class `i ≥ 2` is filed one bucket down with a size that is not that bucket's class, so the arena stops being well classed |
| `ArenaInit.Carve` | par_malloc.c:124-132 | the inner loop gives only blocks of the bucket's size, and some exactly when the cursor starts below both limits |
| `ArenaInit.CarveEnd` | par_malloc.c:124-132 | the cursor moves 24 + size bytes per block carved, stays put exactly when the loop never runs, and stops only once it has reached `next_page` or `max_addr` |
| `ArenaInit.CarveLayout` | par_malloc.c:124-133 | the carved list starts at the cursor, runs back to back up to its head, keeps its head below both limits, and the cursor stops where the head ends |
| `ArenaInit.HeadHighest` | par_malloc.c:128-133 | in a back-to-back list linked in carving order the head has the highest address |
| `ArenaInit.InitBuckets` | par_malloc.c:121-136 | the outer loop from bucket `i` gives one list per remaining bucket, bucket `i + j` holding only blocks of size `2^(i+j+3)` |
| `ArenaInit.InitBucketsCons` | par_malloc.c:121-136 | one pass of the outer loop puts its bucket in front of the layout of the later buckets, starting where that bucket's head ends |
| `ArenaInit.InitBucketsLayout` | par_malloc.c:121-136 | the outer loop lays out each remaining bucket non-empty and back to back, each carved up to a limit one stride above the last: its head starts below the limit and ends at or past it |
| `ArenaInit.LaidLayout` | par_malloc.c:121-136 | eleven buckets laid back to back with room for the top one satisfy the whole layout: non-empty buckets of their class only, each carved up to its limit, heads highest, last block inside the region |
| `ArenaInit.InitializeArena` | par_malloc.c:103-139 | eleven bucket lists, each holding only blocks of its class |
| `ArenaInit.InitializeArenaLayout` | par_malloc.c:103-139 | every bucket is non-empty and of its class only; blocks run back to back from the end of the 128-byte arena record; bucket `i` is carved up to `base + 331776·(i+1)`, its head starting below that limit and ending at or past it; each head is its bucket's highest block; the last block ends inside the region |

## Left out

- Memory mapping (`mmap`, `munmap`): the address a mapping returns is a parameter (`page`, `region`, `base`). Unmapping is only counted.
- Mutexes, the `__thread` arena pointer, `NUM_ALLOCATIONS` and the lazy mutex initialisation in `hmalloc`: there is no concurrency in the model.
- `hprintstats` and every `printf`: these only print diagnostics.
- The contents copy (`memcpy`) in `hrealloc` and `xrealloc`: only which blocks are linked where is modelled. The copy reads the old size even when shrinking.
- `hw07_malloc.c` is not part of this model. It forwards to `hmalloc`, `hfree` and `hrealloc`.
- The lazy `initialize_arena` call inside `xmalloc`: the arena is a parameter, and `ArenaInit.InitializeArena` builds the initial one.
- The `arena_id` field of `node_t`: it is written as 0 and never read.
- `Rounding.GetBucket`: the floating-point `log(x)/log(2)` is modelled as an exact integer floor log2. `pow(2, i+4)` is modelled as an exact integer power.
- `FreeList.Coalesce`: does not model the `int` truncation of the address difference or the `int` overflow of a merged size. At the tail, the source compares a null `next` against the node; the model treats this as "no successor, advance".
- `FreeList.FindCellForSpace`: the requirement is an `int` in the source; sizes are unbounded here.
- `GlobalHeap.HMalloc`: requires `request + 8 < 2^64`, so the `size_t` addition does not wrap.
- `GlobalHeap.HFree`: requires a small block to record at least 8 bytes. Below that, `size − 8` underflows a `size_t`.
- `GlobalHeap.HFreeAfterHMallocSmall`: requires a request of at least 8 bytes, for the same reason.
- `GlobalHeap.HRealloc`: requires the recorded size to fit a C `int`. The source reads the 8-byte header through an `int` pointer.
- `GlobalHeap.HRealloc`: as written, a page-mapped block's header holds the whole mapping's length, so the node pushed at `prev − 8` reaches 8 bytes past the mapping (`HReallocLargeOverrun`); the model keeps this behaviour rather than correcting it.
- `GlobalHeap.HReallocCover`: requires the recorded size to be at least 8 and the list `hmalloc` leaves to have no negative size. Below 8 the node's size `prev_size − 8` is negative and covers nothing meaningful.
- `Rounding.RoundPowerOfTwo`: requires `num <= 2^62`, so the doubling cannot overflow a `long`.
- `Rounding.RoundUpNearestPage`: requires `num` at most a page below the largest `long`.
- `Arena.PlaceInBucket`: requires a size from 8 to 16383, so that `free_lists[get_bucket(size)]` is inside the array.
- `Arena.XFree`: requires the same range for the size read from the header. The header read itself is replaced by the `size` parameter.
- `Arena.GetBiggerBlockForBucket`: requires `index <= 9`. For index 10 the first probe reads `free_lists[11]`.
- `Arena.XMalloc`: requires bucket 10 to be non-empty when a request classifies to it, for the same reason. The large path returns the mapping's base, not a payload; freeing that pointer would index the buckets out of range, so only the page arithmetic is kept.
- `Arena.XRealloc`: requires `prev_size − 8` in the placeable range. The header read is the `prevSize` parameter.
- `Arena.Fragments`: containment in the donor is stated only for the first fragment (`Arena.SplitTail`). Later fragments' 24-byte headers are never charged, and `Arena.FragmentsOverrunDonor` shows one running past the donor.
- The `to_insert == NULL` break in the split loop: the model never takes it. Addresses only grow along the loop.
- `ArenaInit.InitializeArena`: `sizeof(arena)` is taken as 128 bytes, a 40-byte `pthread_mutex_t` plus eleven list heads, as on x86-64 glibc. The `max_addr` bound is carried through, but with 11 strides of 331 776 bytes it never stops the carving.

=== FILE: arena.dfy ===
/**
 The segregated arena of par_malloc.c: eleven bucket lists of power-of-two blocks
 (8, 16, ..., 8192 bytes), each block behind a 24-byte `node_t`. A block is its
 header address and the value of its `size` field; a bucket list is a sequence
 whose first element is the list head.
 */
module Arena {
  import opened Wrappers
  import opened Powers
  import opened Rounding

  /** `sizeof(node_t)`: an `int`, a pointer and an `int`, padded to 24 bytes. */
  const NodeBytes: int := 24

  /** A remainder below this many bytes is not split off a borrowed block. */
  const SplitFloor: int := 40

  datatype Block = Block(addr: int, size: int)

  /** One past the last byte the block's header and payload cover. */
  function End(b: Block): (e: int)
  {
    b.addr + NodeBytes + b.size
  }

  /** The address handed to the caller for a block. */
  function Payload(b: Block): (p: int)
  {
    b.addr + NodeBytes
  }

  /** `free_lists[11]`: bucket `i` holds the blocks of `2^(i+3)` bytes. */
  type Buckets = s: seq<seq<Block>> | |s| == 11
    witness [[], [], [], [], [], [], [], [], [], [], []]

  function ClassSize(i: nat): (size: int)
  {
    Pow2(i + 3)
  }

  predicate AllOfSize(l: seq<Block>, size: int)
  {
    forall b | b in l :: b.size == size
  }

  /** Every block sits in the bucket of its own size. */
  predicate ClassesHold(a: seq<seq<Block>>)
  {
    forall i | 0 <= i < |a| :: AllOfSize(a[i], ClassSize(i))
  }

  function SizeSum(l: seq<Block>): (total: int)
  {
    if |l| == 0 then 0 else l[0].size + SizeSum(l[1..])
  }

  /** The blocks of all buckets together. */
  function Blocks(a: seq<seq<Block>>): multiset<Block>
  {
    if |a| == 0 then multiset{} else multiset(a[0]) + Blocks(a[1..])
  }

  /** The sum of the `size` fields of all blocks in the arena. */
  function SizeTotal(a: seq<seq<Block>>): int
  {
    if |a| == 0 then 0 else SizeSum(a[0]) + SizeTotal(a[1..])
  }

  lemma SizeSumCons(b: Block, l: seq<Block>)
    ensures SizeSum([b] + l) == b.size + SizeSum(l)
  {
    assert ([b] + l)[1..] == l;
  }

  lemma Cancel<T>(x: multiset<T>, y: multiset<T>, m: multiset<T>)
    requires x + m == y + m
    ensures x == y
  {
    forall o
      ensures x[o] == y[o]
    {
      assert (x + m)[o] == (y + m)[o];
    }
  }

  /** Replacing one bucket changes the arena's blocks by exactly that bucket's change. */
  lemma {:induction false} UpdateBlocks(a: seq<seq<Block>>, i: int, x: seq<Block>)
    requires 0 <= i < |a|
    ensures Blocks(a[i := x]) + multiset(a[i]) == Blocks(a) + multiset(x)
  {
    if i > 0 {
      var b := a[i := x];
      assert b[1..] == a[1..][i - 1 := x];
      assert a[1..][i - 1] == a[i];
      UpdateBlocks(a[1..], i - 1, x);
      calc {
        Blocks(b) + multiset(a[i]);
        multiset(a[0]) + Blocks(a[1..][i - 1 := x]) + multiset(a[i]);
        multiset(a[0]) + (Blocks(a[1..][i - 1 := x]) + multiset(a[i]));
        multiset(a[0]) + (Blocks(a[1..]) + multiset(x));
        multiset(a[0]) + Blocks(a[1..]) + multiset(x);
        Blocks(a) + multiset(x);
      }
    } else {
      assert a[i := x][1..] == a[1..];
    }
  }

  /** Replacing one bucket changes the arena's size total by exactly that bucket's change. */
  lemma {:induction false} UpdateSizeTotal(a: seq<seq<Block>>, i: int, x: seq<Block>)
    requires 0 <= i < |a|
    ensures SizeTotal(a[i := x]) + SizeSum(a[i]) == SizeTotal(a) + SizeSum(x)
  {
    if i > 0 {
      var b := a[i := x];
      assert b[1..] == a[1..][i - 1 := x];
      UpdateSizeTotal(a[1..], i - 1, x);
    } else {
      assert a[i := x][1..] == a[1..];
    }
  }

  /** A size whose bucket index lies in 0..10, so that `free_lists[get_bucket(size)]` is in range. */
  predicate Placeable(size: int)
  {
    MinClass <= size < 2 * MaxClass
  }

  /** A placeable size lies in the band of the bucket it is pushed to. */
  lemma BucketBand(size: int)
    requires Placeable(size)
    ensures 0 <= GetBucket(size) <= 10
    ensures ClassSize(GetBucket(size)) <= size < 2 * ClassSize(GetBucket(size))
  {
    var e := Log2(size);
    assert Pow2(3) == 8 && Pow2(14) == 16384;
    if e < 3 {
      Pow2Monotone(e + 1, 3);
    } else if e > 13 {
      Pow2Monotone(14, e);
    }
  }

  /** A power of two from 8 to 16383 is exactly the class size of its bucket. */
  lemma ExactClass(size: int)
    requires Placeable(size) && IsPow2(size)
    ensures ClassSize(GetBucket(size)) == size
  {
    BucketBand(size);
    IsPow2Exact(size);
  }

  /**
   `place_in_bucket`: push the block onto the head of the bucket its size selects.
   The bucket is the one whose class size is the largest power of two not above the size.
   */
  function PlaceInBucket(a: Buckets, b: Block): (r: Buckets)
    requires Placeable(b.size)
    ensures 0 <= GetBucket(b.size) <= 10
    ensures ClassSize(GetBucket(b.size)) <= b.size < 2 * ClassSize(GetBucket(b.size))
    ensures |r[GetBucket(b.size)]| > 0 && r[GetBucket(b.size)][0] == b
    ensures r[GetBucket(b.size)][1..] == a[GetBucket(b.size)]
    ensures forall j | 0 <= j < 11 && j != GetBucket(b.size) :: r[j] == a[j]
  {
    BucketBand(b.size);
    var i := GetBucket(b.size);
    assert ([b] + a[i])[1..] == a[i];
    a[i := [b] + a[i]]
  }

  /** Unlink the head of bucket `i`. */
  function PopBucket(a: Buckets, i: int): (r: (Buckets, Block))
    requires 0 <= i < 11 && |a[i]| > 0
    ensures r.1 in a[i]
    ensures |r.0[i]| + 1 == |a[i]|
    ensures forall j | 0 <= j < 11 && j != i :: r.0[j] == a[j]
  {
    (a[i := a[i][1..]], a[i][0])
  }

  /** Popping what was just pushed gives back the arena and the block. */
  lemma PopAfterPlace(a: Buckets, b: Block)
    requires Placeable(b.size)
    ensures PopBucket(PlaceInBucket(a, b), GetBucket(b.size)) == (a, b)
  {
    var r := PlaceInBucket(a, b);
    assert r[GetBucket(b.size) := r[GetBucket(b.size)][1..]] == a;
  }

  /** Pushing back the head of a class bucket restores the arena. */
  lemma PlaceAfterPop(a: Buckets, i: int)
    requires 0 <= i < 11 && |a[i]| > 0 && ClassesHold(a)
    ensures Placeable(a[i][0].size) && GetBucket(a[i][0].size) == i
    ensures PlaceInBucket(PopBucket(a, i).0, a[i][0]) == a
  {
    var b := a[i][0];
    assert b in a[i];
    assert b.size == ClassSize(i);
    assert Pow2(3) == 8 && Pow2(14) == 16384;
    Pow2Monotone(3, i + 3);
    Pow2Monotone(i + 3, 13);
    Log2Unique(b.size, i + 3);
    assert [b] + a[i][1..] == a[i];
  }

  /** `place_in_bucket` adds exactly one block. */
  lemma PlaceConserves(a: Buckets, b: Block)
    requires Placeable(b.size)
    ensures Blocks(PlaceInBucket(a, b)) == Blocks(a) + multiset{b}
    ensures SizeTotal(PlaceInBucket(a, b)) == SizeTotal(a) + b.size
  {
    BucketBand(b.size);
    var i := GetBucket(b.size);
    var r := a[i := [b] + a[i]];
    UpdateBlocks(a, i, [b] + a[i]);
    UpdateSizeTotal(a, i, [b] + a[i]);
    assert multiset([b] + a[i]) == multiset{b} + multiset(a[i]);
    Cancel(Blocks(r), Blocks(a) + multiset{b}, multiset(a[i]));
    SizeSumCons(b, a[i]);
  }

  /** A block of a power-of-two size lands in the bucket of its class. */
  lemma PlaceKeepsClasses(a: Buckets, b: Block)
    requires Placeable(b.size) && IsPow2(b.size) && ClassesHold(a)
    ensures ClassesHold(PlaceInBucket(a, b))
  {
    ExactClass(b.size);
  }

  /** Popping a bucket head removes exactly that block and keeps class membership. */
  lemma PopConserves(a: Buckets, i: int)
    requires 0 <= i < 11 && |a[i]| > 0
    ensures Blocks(PopBucket(a, i).0) + multiset{a[i][0]} == Blocks(a)
    ensures SizeTotal(PopBucket(a, i).0) + a[i][0].size == SizeTotal(a)
    ensures ClassesHold(a) ==> ClassesHold(PopBucket(a, i).0)
  {
    var r := a[i := a[i][1..]];
    UpdateBlocks(a, i, a[i][1..]);
    UpdateSizeTotal(a, i, a[i][1..]);
    assert a[i] == [a[i][0]] + a[i][1..];
    assert multiset(a[i]) == multiset{a[i][0]} + multiset(a[i][1..]);
    Cancel(Blocks(r) + multiset{a[i][0]}, Blocks(a), multiset(a[i][1..]));
    SizeSumCons(a[i][0], a[i][1..]);
  }

  /**
   `xfree`: the header 24 bytes below `ptr` is pushed onto the bucket of its recorded
   size, which the caller reads from that header and passes as `size`.
   */
  function XFree(a: Buckets, ptr: int, size: int): (r: Buckets)
    requires Placeable(size)
    ensures Blocks(r) == Blocks(a) + multiset{Block(ptr - NodeBytes, size)}
    ensures 0 <= GetBucket(size) <= 10
    ensures |r[GetBucket(size)]| > 0 && Payload(r[GetBucket(size)][0]) == ptr
    ensures r[GetBucket(size)] == [Block(ptr - NodeBytes, size)] + a[GetBucket(size)]
    ensures forall j | 0 <= j < 11 && j != GetBucket(size) :: r[j] == a[j]
  {
    PlaceConserves(a, Block(ptr - NodeBytes, size));
    PlaceInBucket(a, Block(ptr - NodeBytes, size))
  }

  /**
   The buckets the donor search of `get_bigger_block_for_bucket` consults for
   `index`: the next bucket up, and then the buckets up to 9. Bucket 10 is
   consulted only when it is the first candidate.
   */
  predicate Candidate(index: int, j: int)
  {
    index < j && (j <= 9 || j == index + 1)
  }

  /** The search loop, starting at candidate `t`. */
  function Search(a: Buckets, t: int): (r: Option<int>)
    requires 1 <= t <= 10
    decreases 10 - t
    ensures r.Some? ==> Candidate(t - 1, r.value) && r.value < 11 && |a[r.value]| > 0
    ensures r.Some? ==> forall j | t <= j < r.value :: |a[j]| == 0
    ensures r.None? <==> forall j | 0 <= j < 11 && Candidate(t - 1, j) :: |a[j]| == 0
  {
    if |a[t]| > 0 then Some(t)
    else if t + 1 > 9 then None
    else Search(a, t + 1)
  }

  /** The donor bucket: the first non-empty candidate, or nothing (the source then exits). */
  function FindDonor(a: Buckets, index: int): (r: Option<int>)
    requires 0 <= index <= 9
    ensures r.Some? ==> Candidate(index, r.value) && r.value < 11 && |a[r.value]| > 0
    ensures r.Some? ==> forall j | index < j < r.value :: |a[j]| == 0
    ensures r.None? <==> forall j | 0 <= j < 11 && Candidate(index, j) :: |a[j]| == 0
  {
    Search(a, index + 1)
  }

  /** Consecutive blocks: each starts where the previous one's payload ends. */
  predicate Chained(l: seq<Block>)
  {
    |l| <= 1 || (l[1].addr == End(l[0]) && Chained(l[1..]))
  }

  /**
   The split loop of `get_bigger_block_for_bucket`: from `at`, carve blocks of
   `round_down_two(remaining)` bytes while at least 40 bytes remain, in the order
   they are pushed. Only each block's `size` is charged to `remaining`.
   */
  function Fragments(at: int, remaining: int): (r: seq<Block>)
    decreases remaining
    ensures remaining < SplitFloor <==> |r| == 0
    ensures forall f | f in r :: IsPow2(f.size) && 32 <= f.size <= MaxClass
    ensures |r| > 0 ==> r[0].addr == at && r[0].size <= remaining
    ensures Chained(r)
    ensures remaining >= SplitFloor ==> 0 <= remaining - SizeSum(r) < SplitFloor
  {
    if remaining < SplitFloor then []
    else
      var size := RoundDownTwo(remaining);
      var f := Block(at, size);
      var tail := Fragments(at + NodeBytes + size, remaining - size);
      SizeSumCons(f, tail);
      assert ([f] + tail)[1..] == tail;
      [f] + tail
  }

  /**
   The blocks carved from a donor after its first `blockSize` bytes are handed out.
   The first of them starts right after the handed-out block and ends inside the donor.
   */
  function SplitTail(donor: Block, blockSize: int): (fs: seq<Block>)
    ensures |fs| > 0 <==> donor.size - NodeBytes - blockSize >= SplitFloor
    ensures |fs| > 0 ==> fs[0].addr == End(Block(donor.addr, blockSize))
    ensures |fs| > 0 ==> End(fs[0]) <= End(donor)
  {
    Fragments(donor.addr + NodeBytes + blockSize, donor.size - NodeBytes - blockSize)
  }

  /**
   A run in which each block's size is `cut` of what is left when it is cut, at least
   40 bytes being left at that point, starting from `remaining`.
   */
  predicate CutBy(r: seq<Block>, remaining: int, cut: int -> int)
    decreases |r|
  {
    |r| == 0 || (remaining >= SplitFloor && r[0].size == cut(remaining) && CutBy(r[1..], remaining - r[0].size, cut))
  }

  /** The size `round_down_two` cuts from what is left, wherever it is defined. */
  function CutSize(remaining: int): (size: int)
  {
    if remaining >= 1 then RoundDownTwo(remaining) else 0
  }

  /** One pass of the split loop: the first fragment, in front of the split of what it leaves. */
  lemma FragmentsStep(at: int, remaining: int)
    requires remaining >= SplitFloor
    ensures Fragments(at, remaining)
      == [Block(at, RoundDownTwo(remaining))]
         + Fragments(at + NodeBytes + RoundDownTwo(remaining), remaining - RoundDownTwo(remaining))
  {
  }

  /** A run cut by a rule stays cut by it with one more block in front, cut first. */
  lemma CutByCons(r: seq<Block>, b: Block, tail: seq<Block>, remaining: int, rest: int, cut: int -> int)
    requires r == [b] + tail
    requires remaining >= SplitFloor && b.size == cut(remaining)
    requires rest == remaining - b.size && CutBy(tail, rest, cut)
    ensures CutBy(r, remaining, cut)
  {
    assert r[1..] == tail;
  }

  /**
   `split_block` cuts every fragment by `round_down_two`. The rule is passed as `cut`,
   any function that agrees with `round_down_two` wherever the loop cuts.
   */
  lemma {:induction false} FragmentsCutBy(at: int, remaining: int, cut: int -> int)
    requires forall n :: n >= SplitFloor ==> cut(n) == RoundDownTwo(n)
    decreases remaining
    ensures CutBy(Fragments(at, remaining), remaining, cut)
  {
    if remaining >= SplitFloor {
      FragmentsStep(at, remaining);
      FragmentsCutBy(at + NodeBytes + RoundDownTwo(remaining), remaining - RoundDownTwo(remaining), cut);
      CutByCons(Fragments(at, remaining), Block(at, RoundDownTwo(remaining)),
        Fragments(at + NodeBytes + RoundDownTwo(remaining), remaining - RoundDownTwo(remaining)),
        remaining, remaining - RoundDownTwo(remaining), cut);
    } else {
      assert |Fragments(at, remaining)| == 0;
    }
  }

  /** In a run cut by `cut`, block `j` is cut from what the blocks before it leave. */
  lemma {:induction false} CutAt(r: seq<Block>, remaining: int, cut: int -> int, j: nat)
    requires CutBy(r, remaining, cut) && j < |r|
    decreases j
    ensures remaining - SizeSum(r[..j]) >= SplitFloor
    ensures r[j].size == cut(remaining - SizeSum(r[..j]))
  {
    if j == 0 {
      assert r[..0] == [];
    } else {
      CutAt(r[1..], remaining - r[0].size, cut, j - 1);
      PrefixShift(r, remaining, j);
    }
  }

  /** What is left before block `j` of a run is what is left before block `j - 1` of its tail. */
  lemma PrefixShift(r: seq<Block>, remaining: int, j: nat)
    requires 0 < j < |r|
    ensures remaining - SizeSum(r[..j]) == (remaining - r[0].size) - SizeSum(r[1..][..j - 1])
    ensures r[j] == r[1..][j - 1]
  {
    assert r[..j] == [r[0]] + r[1..][..j - 1];
    SizeSumCons(r[0], r[1..][..j - 1]);
  }

  /**
   Block `j` of a run carved from `remaining` bytes takes `round_down_two` of what the
   blocks before it leave, and at least 40 bytes are left at that point.
   */
  predicate GreedyAt(r: seq<Block>, remaining: int, j: nat)
    requires j < |r|
  {
    var left := remaining - SizeSum(r[..j]);
    left >= SplitFloor && r[j].size == RoundDownTwo(left)
  }

  /** The split is greedy: every block of the run follows the rule above. */
  predicate Greedy(r: seq<Block>, remaining: int)
  {
    forall j: nat | j < |r| :: GreedyAt(r, remaining, j)
  }

  /** The fragments carved from a remainder follow the greedy rule. */
  lemma FragmentsGreedy(at: int, remaining: int)
    ensures Greedy(Fragments(at, remaining), remaining)
  {
    FragmentsCutBy(at, remaining, CutSize);
    CutByGreedy(Fragments(at, remaining), remaining);
  }

  /** Any run cut by `round_down_two` follows the greedy rule. */
  lemma CutByGreedy(r: seq<Block>, remaining: int)
    requires CutBy(r, remaining, CutSize)
    ensures Greedy(r, remaining)
  {
    forall j: nat | j < |r|
      ensures GreedyAt(r, remaining, j)
    {
      RoundDownAt(r, remaining, j);
    }
  }

  /** In a run cut by `round_down_two`, block `j` follows the greedy rule. */
  lemma RoundDownAt(r: seq<Block>, remaining: int, j: nat)
    requires CutBy(r, remaining, CutSize) && j < |r|
    ensures GreedyAt(r, remaining, j)
  {
    CutAt(r, remaining, CutSize, j);
    var left := remaining - SizeSum(r[..j]);
    assert CutSize(left) == RoundDownTwo(left);
  }

  predicate AllPlaceable(fs: seq<Block>)
  {
    forall f | f in fs :: Placeable(f.size) && IsPow2(f.size)
  }

  /** Push each block in turn onto the bucket of its size. */
  function PushAll(a: Buckets, fs: seq<Block>): (r: Buckets)
    requires AllPlaceable(fs)
    decreases |fs|
    ensures Blocks(r) == Blocks(a) + multiset(fs)
  {
    if |fs| == 0 then a
    else
      assert fs[0] in fs;
      assert forall f | f in fs[1..] :: f in fs;
      assert fs == [fs[0]] + fs[1..];
      PlaceConserves(a, fs[0]);
      PushAll(PlaceInBucket(a, fs[0]), fs[1..])
  }

  /** One push of a run: the first block, then the rest of the run. */
  lemma PushAllStep(a: Buckets, fs: seq<Block>)
    requires AllPlaceable(fs) && |fs| > 0
    ensures Placeable(fs[0].size) && AllPlaceable(fs[1..])
    ensures PushAll(a, fs) == PushAll(PlaceInBucket(a, fs[0]), fs[1..])
    ensures multiset(fs) == multiset{fs[0]} + multiset(fs[1..])
    ensures SizeSum(fs) == fs[0].size + SizeSum(fs[1..])
  {
    assert fs[0] in fs;
    assert forall f | f in fs[1..] :: f in fs;
    assert fs == [fs[0]] + fs[1..];
    SizeSumCons(fs[0], fs[1..]);
  }

  /** Pushing a run of blocks adds exactly those blocks, each to the bucket of its size. */
  lemma {:induction false} PushAllConserves(a: Buckets, fs: seq<Block>)
    requires AllPlaceable(fs)
    decreases |fs|
    ensures Blocks(PushAll(a, fs)) == Blocks(a) + multiset(fs)
    ensures SizeTotal(PushAll(a, fs)) == SizeTotal(a) + SizeSum(fs)
  {
    if |fs| > 0 {
      PushAllStep(a, fs);
      PlaceConserves(a, fs[0]);
      PushAllConserves(PlaceInBucket(a, fs[0]), fs[1..]);
    }
  }

  lemma {:induction false} PushAllKeepsClasses(a: Buckets, fs: seq<Block>)
    requires AllPlaceable(fs) && ClassesHold(a)
    decreases |fs|
    ensures ClassesHold(PushAll(a, fs))
  {
    if |fs| > 0 {
      assert fs[0] in fs;
      assert forall f | f in fs[1..] :: f in fs;
      PlaceKeepsClasses(a, fs[0]);
      PushAllKeepsClasses(PlaceInBucket(a, fs[0]), fs[1..]);
    }
  }

  lemma FragmentsPlaceable(at: int, remaining: int)
    ensures AllPlaceable(Fragments(at, remaining))
  {
    assert Pow2(13) == 8192;
  }

  /**
   `get_bigger_block_for_bucket`: unlink the head of the donor bucket, hand out its
   first `2^(index+4)` bytes as a block of the next class up, and push the split-off
   remainder unless it is under 40 bytes. With no donor the process exits with -1.
   */
  function GetBiggerBlockForBucket(a: Buckets, index: int): (r: Result<(Buckets, Block)>)
    requires 0 <= index <= 9
    ensures r.Exit? <==> FindDonor(a, index).None?
    ensures r.Exit? ==> r.status == -1
    ensures r.Ok? ==> r.value.1.size == ClassSize(index + 1)
    ensures r.Ok? ==> r.value.1.addr == a[FindDonor(a, index).value][0].addr
  {
    match FindDonor(a, index)
    case None => Exit(-1)
    case Some(d) =>
      var (rest, donor) := PopBucket(a, d);
      var blockSize := ClassSize(index + 1);
      var handed := Block(donor.addr, blockSize);
      if donor.size - NodeBytes - blockSize < SplitFloor then Ok((rest, handed))
      else
        FragmentsPlaceable(donor.addr + NodeBytes + blockSize, donor.size - NodeBytes - blockSize);
        Ok((PushAll(rest, SplitTail(donor, blockSize)), handed))
  }

  /**
   Over a well-classed arena the handed-out block lies inside the donor, which comes
   from a larger class; the split keeps every block in the bucket of its size.
   */
  lemma GetBiggerWithinDonor(a: Buckets, index: int)
    requires 0 <= index <= 9 && ClassesHold(a)
    requires GetBiggerBlockForBucket(a, index).Ok?
    ensures var d := FindDonor(a, index).value;
      var blk := GetBiggerBlockForBucket(a, index).value.1;
      blk.addr == a[d][0].addr && End(blk) <= End(a[d][0])
    ensures ClassesHold(GetBiggerBlockForBucket(a, index).value.0)
  {
    var d := FindDonor(a, index).value;
    var donor := a[d][0];
    assert donor in a[d];
    Pow2Monotone(index + 4, d + 3);
    PopConserves(a, d);
    var rest := PopBucket(a, d).0;
    var blockSize := ClassSize(index + 1);
    if donor.size - NodeBytes - blockSize >= SplitFloor {
      FragmentsPlaceable(donor.addr + NodeBytes + blockSize, donor.size - NodeBytes - blockSize);
      PushAllKeepsClasses(rest, SplitTail(donor, blockSize));
    }
  }

  /**
   Byte accounting of a borrow: the donor leaves the arena; when it is split, the
   size fields pushed back fall short of the donor by the handed-out block, its
   24-byte header and a slack of less than 40 bytes.
   */
  lemma GetBiggerAccounting(a: Buckets, index: int)
    requires 0 <= index <= 9
    requires GetBiggerBlockForBucket(a, index).Ok?
    ensures var donor := a[FindDonor(a, index).value][0];
      var r := GetBiggerBlockForBucket(a, index).value.0;
      var spare := donor.size - NodeBytes - ClassSize(index + 1);
      (spare < SplitFloor ==> SizeTotal(r) + donor.size == SizeTotal(a)) &&
      (spare >= SplitFloor ==>
        0 <= SizeTotal(a) - SizeTotal(r) - (NodeBytes + ClassSize(index + 1)) < SplitFloor)
    ensures var donor := a[FindDonor(a, index).value][0];
      var r := GetBiggerBlockForBucket(a, index).value.0;
      Blocks(r) + multiset{donor} == Blocks(a) + multiset(SplitTail(donor, ClassSize(index + 1)))
  {
    var d := FindDonor(a, index).value;
    var donor := a[d][0];
    PopConserves(a, d);
    var rest := PopBucket(a, d).0;
    var blockSize := ClassSize(index + 1);
    if donor.size - NodeBytes - blockSize >= SplitFloor {
      FragmentsPlaceable(donor.addr + NodeBytes + blockSize, donor.size - NodeBytes - blockSize);
      PushAllConserves(rest, SplitTail(donor, blockSize));
    }
  }

  /**
   Later fragments are not contained in the donor: their headers are never charged
   to the remainder. Splitting a 512-byte donor at address 0 for a 16-byte block
   carves three blocks whose last one ends 24 bytes past the donor.
   */
  lemma FragmentsOverrunDonor()
    ensures var fs := SplitTail(Block(0, 512), 16);
      |fs| == 3 && End(fs[2]) == End(Block(0, 512)) + 24
  {
    assert RoundDownTwo(472) == 256;
    assert RoundDownTwo(216) == 128;
    assert RoundDownTwo(88) == 64;
    assert Fragments(560, 24) == [];
    assert Fragments(472, 88) == [Block(472, 64)];
    assert Fragments(320, 216) == [Block(320, 128), Block(472, 64)];
    assert Fragments(40, 472) == [Block(40, 256), Block(320, 128), Block(472, 64)];
  }

  /** What `xmalloc` hands back. */
  datatype Allocation =
    | /** A block from the arena; the caller receives its payload address. */
      Pooled(arena: Buckets, block: Block)
    | /** A fresh mapping of `length` bytes at `header`, whose size field records the request. */
      Mapped(header: int, length: int, sizeField: int)

  /** The pointer `xmalloc` returns: the payload of a pooled block, the mapping's base otherwise. */
  function Returned(m: Allocation): int
  {
    match m
    case Pooled(_, b) => Payload(b)
    case Mapped(h, _, _) => h
  }

  /**
   `xmalloc`: requests whose rounded class is beyond bucket 10 get a fresh mapping
   of whole pages at `region`; the others pop the head of their class bucket, or
   borrow from a larger bucket when it is empty.
   */
  function XMalloc(a: Buckets, bytes: int, region: int): (r: Result<Allocation>)
    requires 0 <= bytes <= RoundLimit
    requires Classify(bytes) == 10 ==> |a[10]| > 0
    ensures Classify(bytes) > 10 <==> r.Ok? && r.value.Mapped?
    ensures r.Ok? && r.value.Mapped? ==>
      bytes > MaxClass && r.value.header == region && r.value.sizeField == bytes &&
      r.value.length % PageSize == 0 && r.value.length >= bytes + NodeBytes &&
      r.value.length - PageSize < bytes + NodeBytes
    ensures r.Exit? <==>
      Classify(bytes) <= 9 && |a[Classify(bytes)]| == 0 && FindDonor(a, Classify(bytes)).None?
    ensures r.Ok? && r.value.Pooled? && |a[Classify(bytes)]| > 0 ==>
      r.value.block == a[Classify(bytes)][0] && r.value.arena == PopBucket(a, Classify(bytes)).0
    ensures Classify(bytes) <= 9 && |a[Classify(bytes)]| == 0 && r.Ok? ==>
      r.value.Pooled? &&
      r.value.arena == GetBiggerBlockForBucket(a, Classify(bytes)).value.0 &&
      r.value.block == GetBiggerBlockForBucket(a, Classify(bytes)).value.1
  {
    var c := Classify(bytes);
    if c > 10 then
      LargeClass(bytes);
      Ok(Mapped(region, RoundUpNearestPage(bytes + NodeBytes), bytes))
    else if |a[c]| == 0 then
      match GetBiggerBlockForBucket(a, c)
      case Exit(s) => Exit(s)
      case Ok((rest, b)) => Ok(Pooled(rest, b))
    else
      var (rest, b) := PopBucket(a, c);
      Ok(Pooled(rest, b))
  }

  /** A request rounded past bucket 10 is larger than 8192 bytes. */
  lemma LargeClass(bytes: int)
    requires bytes <= RoundLimit && Classify(bytes) > 10
    ensures bytes > MaxClass
  {
    Pow2Monotone(14, Classify(bytes) + 3);
    assert Pow2(14) == 16384;
  }

  /**
   A bucket hit over a well-classed arena: the block popped is of the request's class,
   large enough for the request, and freeing it at once restores the arena.
   */
  lemma XMallocHit(a: Buckets, bytes: int, region: int)
    requires 0 <= bytes <= RoundLimit && ClassesHold(a)
    requires Classify(bytes) <= 10 && |a[Classify(bytes)]| > 0
    ensures var r := XMalloc(a, bytes, region);
      r.Ok? && r.value.Pooled? &&
      r.value.block.size == ClassSize(Classify(bytes)) && r.value.block.size >= bytes &&
      ClassesHold(r.value.arena) &&
      Placeable(r.value.block.size) &&
      XFree(r.value.arena, Returned(r.value), r.value.block.size) == a
  {
    var c := Classify(bytes);
    assert a[c][0] in a[c];
    PopConserves(a, c);
    PlaceAfterPop(a, c);
  }

  /**
   A borrow over a well-classed arena: the block handed out is of the class above
   the request's, so it is large enough, and freeing it later files it one bucket
   above the one it was requested from. It is the front of the donor, and the arena
   loses the donor and gains the fragments split from it.
   */
  lemma XMallocBorrow(a: Buckets, bytes: int, region: int)
    requires 0 <= bytes <= RoundLimit && ClassesHold(a)
    requires Classify(bytes) <= 9 && |a[Classify(bytes)]| == 0
    requires FindDonor(a, Classify(bytes)).Some?
    ensures var r := XMalloc(a, bytes, region);
      r.Ok? && r.value.Pooled? &&
      r.value.block.size == ClassSize(Classify(bytes) + 1) && r.value.block.size >= bytes &&
      ClassesHold(r.value.arena) &&
      Placeable(r.value.block.size) && GetBucket(r.value.block.size) == Classify(bytes) + 1
    ensures var r := XMalloc(a, bytes, region);
      var donor := a[FindDonor(a, Classify(bytes)).value][0];
      r.value.Pooled? &&
      r.value.block.addr == donor.addr && End(r.value.block) <= End(donor) &&
      Blocks(r.value.arena) + multiset{donor}
        == Blocks(a) + multiset(SplitTail(donor, ClassSize(Classify(bytes) + 1)))
  {
    var c := Classify(bytes);
    GetBiggerWithinDonor(a, c);
    GetBiggerAccounting(a, c);
    assert Pow2(3) == 8 && Pow2(13) == 8192;
    Pow2Monotone(3, c + 4);
    Pow2Monotone(c + 4, 13);
    GetBucketOfClass(c + 1);
  }

  /**
   `xrealloc`: allocate anew, then push the old block back with its size field read
   from 8 bytes below `prev` minus 8. The copy of the contents is not modelled.
   */
  function XRealloc(a: Buckets, prev: int, prevSize: int, bytes: int, region: int): (r: Result<(Buckets, int)>)
    requires 0 <= bytes <= RoundLimit
    requires Classify(bytes) == 10 ==> |a[10]| > 0
    requires Placeable(prevSize - 8)
    ensures r.Exit? <==> XMalloc(a, bytes, region).Exit?
    ensures r.Ok? ==>
      0 <= GetBucket(prevSize - 8) <= 10 &&
      Block(prev - NodeBytes, prevSize - 8) in r.value.0[GetBucket(prevSize - 8)]
    ensures r.Ok? ==> r.value.1 == Returned(XMalloc(a, bytes, region).value)
    ensures r.Ok? && XMalloc(a, bytes, region).value.Pooled? ==>
      Blocks(r.value.0) == Blocks(XMalloc(a, bytes, region).value.arena) + multiset{Block(prev - NodeBytes, prevSize - 8)}
    ensures r.Ok? && XMalloc(a, bytes, region).value.Mapped? ==>
      Blocks(r.value.0) == Blocks(a) + multiset{Block(prev - NodeBytes, prevSize - 8)}
    ensures r.Ok? ==>
      var m := XMalloc(a, bytes, region).value;
      var before := if m.Pooled? then m.arena else a;
      && r.value.0[GetBucket(prevSize - 8)] == [Block(prev - NodeBytes, prevSize - 8)] + before[GetBucket(prevSize - 8)]
      && forall j | 0 <= j < 11 && j != GetBucket(prevSize - 8) :: r.value.0[j] == before[j]
  {
    match XMalloc(a, bytes, region)
    case Exit(s) => Exit(s)
    case Ok(m) =>
      var arena := if m.Pooled? then m.arena else a;
      var freed := Block(prev - NodeBytes, prevSize - 8);
      PlaceConserves(arena, freed);
      Ok((PlaceInBucket(arena, freed), Returned(m)))
  }

  /** Eight bytes short of class `i >= 2` is a size of bucket `i - 1` but not its class size. */
  lemma MisfiledSize(i: int)
    requires 2 <= i <= 10
    ensures Placeable(ClassSize(i) - 8) && GetBucket(ClassSize(i) - 8) == i - 1
    ensures ClassSize(i) - 8 != ClassSize(i - 1)
  {
    assert Pow2(4) == 16 && Pow2(14) == 16384;
    Pow2Monotone(4, i + 2);
    Pow2Monotone(i + 3, 13);
    Log2Unique(ClassSize(i) - 8, i + 2);
  }

  /**
   Observed behaviour of `xrealloc`: a block of class `i >= 2` is filed one bucket
   down with a size that is not that bucket's class size, so the arena is no longer
   well classed.
   */
  lemma XReallocMisfiles(a: Buckets, prev: int, i: int, bytes: int, region: int)
    requires 0 <= bytes <= RoundLimit
    requires Classify(bytes) == 10 ==> |a[10]| > 0
    requires 2 <= i <= 10
    requires XMalloc(a, bytes, region).Ok?
    ensures Placeable(ClassSize(i) - 8) && GetBucket(ClassSize(i) - 8) == i - 1
    ensures !ClassesHold(XRealloc(a, prev, ClassSize(i), bytes, region).value.0)
  {
    MisfiledSize(i);
  }
}

=== FILE: arena_init.dfy ===
/**
 The layout `initialize_arena` carves out of its 4096 * 900-byte region: after the
 128-byte arena record, bucket `i` takes consecutive blocks of `2^(i+3)` bytes until
 its share of the region (4096 * 81 bytes per bucket) is reached, and each list is
 linked so that its head is the block carved last.
 */
module ArenaInit {
  import opened Powers
  import opened Rounding
  import opened Arena

  /** The region is 4096 * `scale` bytes, with `scale` = 900: 3686400 bytes. */
  const RegionBytes: int := 3686400

  /** Each bucket's share: 4096 * (900 / 11) bytes, with integer division, so 4096 * 81. */
  const Stride: int := 331776

  /** `sizeof(arena)`: a 40-byte `pthread_mutex_t` and eleven 8-byte list heads. */
  const ArenaHeader: int := 128

  /**
   Blocks in list order, head first, where each block ends exactly where the block
   before it in the list begins: the list runs from the highest address down.
   */
  predicate Descending(l: seq<Block>)
  {
    |l| <= 1 || (Descending(l[..|l| - 1]) && l[|l| - 2].addr == End(l[|l| - 1]))
  }

  /** The inner carving loop: blocks of `size` bytes from `t` while `t` is below both limits. */
  function Carve(t: int, limit: int, maxAddr: int, size: int): (r: seq<Block>)
    requires size > 0
    decreases limit - t
    ensures AllOfSize(r, size)
    ensures |r| > 0 <==> t < limit && t < maxAddr
  {
    if t < limit && t < maxAddr then Carve(t + NodeBytes + size, limit, maxAddr, size) + [Block(t, size)]
    else []
  }

  /**
   The carving cursor once the inner loop stops: it moved one block and header per
   block carved, it did not move exactly when the loop never ran, and it has reached
   one of the two limits.
   */
  function CarveEnd(t: int, limit: int, maxAddr: int, size: int): (r: int)
    requires size > 0
    decreases limit - t
    ensures r == t + |Carve(t, limit, maxAddr, size)| * (NodeBytes + size)
    ensures r == t <==> !(t < limit && t < maxAddr)
    ensures !(r < limit && r < maxAddr)
  {
    if t < limit && t < maxAddr then CarveEnd(t + NodeBytes + size, limit, maxAddr, size) else t
  }

  /**
   A carved list starts at `t`, is contiguous from its last block up to its head, its
   head is below both limits, and the cursor stops where the head ends.
   */
  lemma {:induction false} CarveLayout(t: int, limit: int, maxAddr: int, size: int)
    requires size > 0 && t < limit && t < maxAddr
    decreases limit - t
    ensures var r := Carve(t, limit, maxAddr, size);
      |r| > 0 && r[|r| - 1].addr == t && Descending(r) &&
      r[0].addr < limit && r[0].addr < maxAddr &&
      CarveEnd(t, limit, maxAddr, size) == End(r[0])
  {
    var t' := t + NodeBytes + size;
    var rest := Carve(t', limit, maxAddr, size);
    var r := rest + [Block(t, size)];
    assert Carve(t, limit, maxAddr, size) == r;
    assert CarveEnd(t, limit, maxAddr, size) == CarveEnd(t', limit, maxAddr, size);
    assert r[..|r| - 1] == rest;
    if t' < limit && t' < maxAddr {
      CarveLayout(t', limit, maxAddr, size);
      assert r[|r| - 2] == rest[|rest| - 1] && r[0] == rest[0];
    } else {
      assert rest == [];
    }
  }

  /** In a descending list of non-negative sizes the head has the highest address. */
  lemma {:induction false} HeadHighest(l: seq<Block>, size: int)
    requires Descending(l) && AllOfSize(l, size) && size >= 0
    ensures forall b | b in l :: b.addr <= l[0].addr
  {
    if |l| > 1 {
      var front := l[..|l| - 1];
      assert forall b | b in front :: b in l;
      HeadHighest(front, size);
      assert l[|l| - 1] in l && front[|front| - 1] in front;
      assert forall b | b in l :: b in front || b == l[|l| - 1];
    }
  }

  /** The outer loop from bucket `i`: carve each bucket, then move the limit up by one stride. */
  function InitBuckets(i: nat, t: int, nextPage: int, maxAddr: int): (r: seq<seq<Block>>)
    requires i <= 11
    decreases 11 - i
    ensures |r| == 11 - i
    ensures forall j | 0 <= j < |r| :: AllOfSize(r[j], ClassSize(i + j))
  {
    if i == 11 then []
    else
      var size := ClassSize(i);
      [Carve(t, nextPage, maxAddr, size)] + InitBuckets(i + 1, CarveEnd(t, nextPage, maxAddr, size), nextPage + Stride, maxAddr)
  }

  /** `initialize_arena` on a region mapped at `base`. */
  function InitializeArena(base: int): (a: seq<seq<Block>>)
    ensures |a| == 11
    ensures ClassesHold(a)
  {
    InitBuckets(0, base + ArenaHeader, base + Stride, base + RegionBytes)
  }

  /**
   One bucket of class `k` carved from `t` up to its limit `np`: non-empty, of its
   class only, starting at `t`, contiguous up to its head, and with its head starting
   below the limit and ending at or past it.
   */
  predicate Carved(c: seq<Block>, k: nat, t: int, np: int)
  {
    |c| > 0 && c[|c| - 1].addr == t && c[0].addr < np <= End(c[0]) && Descending(c) &&
    AllOfSize(c, ClassSize(k))
  }

  /**
   Buckets `k`, `k+1`, ... laid out back to back from `t`: each is carved up to its
   limit and starts at the address where the previous bucket's head ends, the limits
   rising by one stride per bucket from `np`.
   */
  predicate Laid(r: seq<seq<Block>>, k: nat, t: int, np: int)
  {
    |r| == 0 || (Carved(r[0], k, t, np) && Laid(r[1..], k + 1, End(r[0][0]), np + Stride))
  }

  lemma ClassSizeBound(i: nat)
    requires i <= 10
    ensures MinClass <= ClassSize(i) <= MaxClass
  {
    assert Pow2(3) == 8 && Pow2(13) == 8192;
    Pow2Monotone(3, i + 3);
    Pow2Monotone(i + 3, 13);
  }

  /** One more bucket in front of a layout. */
  lemma LaidCons(c: seq<Block>, rest: seq<seq<Block>>, k: nat, t: int, np: int)
    requires Carved(c, k, t, np) && Laid(rest, k + 1, End(c[0]), np + Stride)
    ensures Laid([c] + rest, k, t, np)
  {
    assert ([c] + rest)[0] == c && ([c] + rest)[1..] == rest;
  }

  /**
   The bucket the inner loop carves for class `i`, and where the cursor stops: at or
   past the bucket's limit, when the region reaches that far.
   */
  lemma FirstBucket(i: nat, t: int, np: int, maxAddr: int)
    requires i <= 10 && t < np <= maxAddr
    ensures var c := Carve(t, np, maxAddr, ClassSize(i));
      Carved(c, i, t, np) &&
      CarveEnd(t, np, maxAddr, ClassSize(i)) == End(c[0]) < np + Stride
  {
    ClassSizeBound(i);
    CarveLayout(t, np, maxAddr, ClassSize(i));
  }

  /**
   The outer loop from bucket `i` lays out every remaining bucket when the region
   reaches past the last bucket's limit.
   */
  lemma {:induction false} InitBucketsLayout(i: nat, t: int, np: int, maxAddr: int)
    requires i <= 11 && t < np && np + Stride * (10 - i) < maxAddr
    decreases 11 - i
    ensures Laid(InitBuckets(i, t, np, maxAddr), i, t, np)
  {
    if i < 11 {
      FirstBucket(i, t, np, maxAddr);
      InitBucketsLayout(i + 1, CarveEnd(t, np, maxAddr, ClassSize(i)), np + Stride, maxAddr);
      InitBucketsCons(i, t, np, maxAddr);
    }
  }

  /** The outer loop's first bucket in front of the layout of the rest. */
  lemma InitBucketsCons(i: nat, t: int, np: int, maxAddr: int)
    requires i < 11
    requires var c := Carve(t, np, maxAddr, ClassSize(i));
      Carved(c, i, t, np) && CarveEnd(t, np, maxAddr, ClassSize(i)) == End(c[0])
    requires var t' := CarveEnd(t, np, maxAddr, ClassSize(i));
      Laid(InitBuckets(i + 1, t', np + Stride, maxAddr), i + 1, t', np + Stride)
    ensures Laid(InitBuckets(i, t, np, maxAddr), i, t, np)
  {
    var c := Carve(t, np, maxAddr, ClassSize(i));
    LaidCons(c, InitBuckets(i + 1, CarveEnd(t, np, maxAddr, ClassSize(i)), np + Stride, maxAddr), i, t, np);
  }

  /**
   What a layout says about each bucket, and the limit under the last bucket's head.
   */
  lemma {:induction false} LaidBuckets(r: seq<seq<Block>>, k: nat, t: int, np: int)
    requires Laid(r, k, t, np)
    ensures forall j | 0 <= j < |r| :: |r[j]| > 0 && Descending(r[j]) && AllOfSize(r[j], ClassSize(k + j))
    ensures forall j | 0 <= j < |r| :: |r[j]| > 0 && r[j][0].addr < np + Stride * j <= End(r[j][0])
  {
    if |r| > 0 {
      var r' := r[1..];
      LaidBuckets(r', k + 1, End(r[0][0]), np + Stride);
      forall j | 1 <= j < |r|
        ensures |r[j]| > 0 && Descending(r[j]) && AllOfSize(r[j], ClassSize(k + j))
        ensures r[j][0].addr < np + Stride * j <= End(r[j][0])
      {
        assert r[j] == r'[j - 1] && k + j == (k + 1) + (j - 1);
        assert (np + Stride) + Stride * (j - 1) == np + Stride * j;
      }
    }
  }

  /**
   The arena laid out from `t` with first limit `np` inside a region ending at `maxAddr`:
   every bucket is non-empty and holds only blocks of its class; the blocks run back
   to back from `t`, bucket after bucket; each list head is its bucket's highest block;
   bucket `i` is carved up to its limit `np + Stride * i`: its head starts below the
   limit and ends at or past it; and the last block ends inside the region.
   */
  predicate Layout(a: seq<seq<Block>>, t: int, np: int, maxAddr: int)
  {
    && |a| == 11
    && (forall i | 0 <= i < 11 :: |a[i]| > 0)
    && ClassesHold(a)
    && Laid(a, 0, t, np)
    && a[0][|a[0]| - 1].addr == t
    && End(a[10][0]) <= maxAddr
    && (forall i | 0 <= i < 11 :: a[i][0].addr < np + Stride * i <= End(a[i][0]))
    && (forall i, b: Block | 0 <= i < 11 && b in a[i] :: b.addr <= a[i][0].addr)
  }

  /** An eleven-bucket layout from class 0, with room for the top bucket, meets `Layout`. */
  lemma LaidLayout(a: seq<seq<Block>>, t: int, np: int, maxAddr: int)
    requires |a| == 11 && Laid(a, 0, t, np) && np + Stride * 10 + NodeBytes + MaxClass <= maxAddr
    ensures Layout(a, t, np, maxAddr)
  {
    ClassSizeBound(10);
    LaidBuckets(a, 0, t, np);
    forall i | 0 <= i < 11
      ensures forall b: Block | b in a[i] :: b.addr <= a[i][0].addr
    {
      HeadHighest(a[i], ClassSize(i));
    }
  }

  /** The outer loop from bucket 0, with limits that leave room for every bucket. */
  lemma LayoutFrom(t: int, np: int, maxAddr: int)
    requires t < np && np + Stride * 10 + NodeBytes + MaxClass <= maxAddr
    ensures Layout(InitBuckets(0, t, np, maxAddr), t, np, maxAddr)
  {
    InitBucketsLayout(0, t, np, maxAddr);
    LaidLayout(InitBuckets(0, t, np, maxAddr), t, np, maxAddr);
  }

  /**
   The outer loop with the limits `initialize_arena` sets, relative to the first block.
   */
  lemma LayoutAt(t: int, np: int, maxAddr: int)
    requires np == t + (Stride - ArenaHeader) && maxAddr == t + (RegionBytes - ArenaHeader)
    ensures Layout(InitBuckets(0, t, np, maxAddr), t, np, maxAddr)
  {
    LayoutFrom(t, np, maxAddr);
  }

  /**
   `initialize_arena` lays its region out from just after the arena record, with the
   first limit one stride into the region.
   */
  lemma InitializeArenaLayout(base: int)
    ensures Layout(InitializeArena(base), base + ArenaHeader, base + Stride, base + RegionBytes)
  {
    LayoutAt(base + ArenaHeader, base + Stride, base + RegionBytes);
  }
}

=== FILE: free_list.dfy ===
/**
 The address-ordered global free list of hmem.c. A free node is a record
 `(addr, size)`: it sits at `addr`, starts with a 16-byte `node_t`, and `size` counts
 the free bytes after that header. The singly linked list is a sequence in list
 order, head first.
 */
module FreeList {
  import opened Wrappers

  /** `sizeof(node_t)` in hmem.c: a next pointer and an int size, padded to 16. */
  const NodeBytes: int := 16

  datatype Node = Node(addr: int, size: int)

  /** One past the last byte a node covers, header included. */
  function End(n: Node): (e: int) {
    n.addr + NodeBytes + n.size
  }

  /** The merge test of `coalesce_free_list`: `b` starts exactly where `a` ends. */
  predicate Adjacent(a: Node, b: Node) {
    b.addr - a.addr == a.size + NodeBytes
  }

  /** `a` after absorbing its successor `b`, header and all. */
  function Merge(a: Node, b: Node): (m: Node) {
    Node(a.addr, a.size + b.size + NodeBytes)
  }

  /** Strictly increasing addresses along the list. */
  predicate Ordered(l: seq<Node>)
    decreases |l|
  {
    |l| <= 1 || (l[0].addr < l[1].addr && Ordered(l[1..]))
  }

  /** No node is immediately followed by the node that starts at its end. */
  predicate Coalesced(l: seq<Node>)
    decreases |l|
  {
    |l| <= 1 || (!Adjacent(l[0], l[1]) && Coalesced(l[1..]))
  }

  /** Each node ends at or before its successor starts: the nodes describe disjoint ranges. */
  predicate Disjoint(l: seq<Node>)
    decreases |l|
  {
    |l| <= 1 || (End(l[0]) <= l[1].addr && Disjoint(l[1..]))
  }

  /** Each node ends strictly before its successor starts: disjoint and not byte-adjacent. */
  predicate Separated(l: seq<Node>)
    decreases |l|
  {
    |l| <= 1 || (End(l[0]) < l[1].addr && Separated(l[1..]))
  }

  predicate NonNegative(l: seq<Node>)
    decreases |l|
  {
    |l| == 0 || (l[0].size >= 0 && NonNegative(l[1..]))
  }

  /** The bytes the list covers, each node counted with its header: the sum of size + 16. */
  function Bytes(l: seq<Node>): (total: int) {
    if |l| == 0 then 0 else l[0].size + NodeBytes + Bytes(l[1..])
  }

  lemma {:induction false} BytesAppend(a: seq<Node>, b: seq<Node>)
    ensures Bytes(a + b) == Bytes(a) + Bytes(b)
    decreases |a|
  {
    if |a| == 0 {
      assert a + b == b;
    } else {
      assert (a + b)[1..] == a[1..] + b;
      BytesAppend(a[1..], b);
    }
  }

  // ---------------------------------------------------------------------------
  // coalesce_free_list
  // ---------------------------------------------------------------------------

  /**
   The single forward pass of `coalesce_free_list`: the candidate absorbs an adjacent
   successor and is examined again against its new successor; otherwise the pass
   moves on. The address of the first node is never changed.
   */
  function Coalesce(l: seq<Node>): (r: seq<Node>)
    decreases |l|
    ensures |r| <= |l|
    ensures |l| >= 1 ==> |r| >= 1 && r[0].addr == l[0].addr
    ensures Coalesced(r)
  {
    if |l| <= 1 then l
    else if Adjacent(l[0], l[1]) then Coalesce([Merge(l[0], l[1])] + l[2..])
    else
      var c := Coalesce(l[1..]);
      assert ([l[0]] + c)[1..] == c;
      [l[0]] + c
  }

  /** Coalescing moves bytes between nodes but never loses or invents any. */
  lemma {:induction false} CoalesceConservesBytes(l: seq<Node>)
    ensures Bytes(Coalesce(l)) == Bytes(l)
    decreases |l|
  {
    if |l| >= 2 {
      if Adjacent(l[0], l[1]) {
        var m := [Merge(l[0], l[1])] + l[2..];
        assert l[1..][1..] == l[2..];
        assert m[1..] == l[2..];
        CoalesceConservesBytes(m);
      } else {
        var c := Coalesce(l[1..]);
        assert ([l[0]] + c)[1..] == c;
        CoalesceConservesBytes(l[1..]);
      }
    }
  }

  /** Coalescing keeps the list in strictly increasing address order. */
  lemma {:induction false} CoalesceKeepsOrder(l: seq<Node>)
    requires Ordered(l)
    ensures Ordered(Coalesce(l))
    decreases |l|
  {
    if |l| >= 2 {
      if Adjacent(l[0], l[1]) {
        var m := [Merge(l[0], l[1])] + l[2..];
        assert l[1..][1..] == l[2..];
        assert m[1..] == l[2..];
        CoalesceKeepsOrder(m);
      } else {
        var c := Coalesce(l[1..]);
        assert ([l[0]] + c)[1..] == c;
        CoalesceKeepsOrder(l[1..]);
      }
    }
  }

  /** Coalescing keeps disjoint ranges disjoint, and sizes non-negative. */
  lemma {:induction false} CoalesceKeepsDisjoint(l: seq<Node>)
    requires Disjoint(l) && NonNegative(l)
    ensures Disjoint(Coalesce(l)) && NonNegative(Coalesce(l))
    decreases |l|
  {
    if |l| >= 2 {
      if Adjacent(l[0], l[1]) {
        var m := [Merge(l[0], l[1])] + l[2..];
        assert l[1..][1..] == l[2..];
        assert m[1..] == l[2..];
        assert End(m[0]) == End(l[1]);
        CoalesceKeepsDisjoint(m);
      } else {
        var c := Coalesce(l[1..]);
        assert ([l[0]] + c)[1..] == c;
        CoalesceKeepsDisjoint(l[1..]);
      }
    }
  }

  /** On a disjoint list, coalescing leaves every node strictly apart from the next. */
  lemma {:induction false} CoalesceSeparates(l: seq<Node>)
    requires Disjoint(l) && NonNegative(l)
    ensures Separated(Coalesce(l))
  {
    CoalesceKeepsDisjoint(l);
    DisjointCoalescedSeparated(Coalesce(l));
  }

  lemma {:induction false} DisjointCoalescedSeparated(l: seq<Node>)
    requires Disjoint(l) && Coalesced(l)
    ensures Separated(l)
    decreases |l|
  {
    if |l| >= 2 {
      DisjointCoalescedSeparated(l[1..]);
    }
  }

  /** Byte `x` lies inside some node of the list, its header included. */
  predicate Covered(l: seq<Node>, x: int)
    decreases |l|
  {
    |l| > 0 && ((l[0].addr <= x < End(l[0])) || Covered(l[1..], x))
  }

  /**
   Coalescing joins only nodes that touch: a byte is covered by the coalesced list
   exactly when it was covered before, so no gap between two nodes is ever closed.
   */
  lemma {:induction false} CoalesceKeepsCover(l: seq<Node>, x: int)
    requires NonNegative(l)
    ensures Covered(Coalesce(l), x) <==> Covered(l, x)
    decreases |l|
  {
    if |l| >= 2 {
      if Adjacent(l[0], l[1]) {
        var m := [Merge(l[0], l[1])] + l[2..];
        assert l[1..][1..] == l[2..];
        assert m[1..] == l[2..];
        CoalesceKeepsCover(m, x);
      } else {
        var c := Coalesce(l[1..]);
        assert ([l[0]] + c)[1..] == c;
        CoalesceKeepsCover(l[1..], x);
      }
    }
  }

  /** A list in which no node touches its successor is left exactly as it is. */
  lemma {:induction false} CoalesceCoalesced(l: seq<Node>)
    requires Coalesced(l)
    ensures Coalesce(l) == l
    decreases |l|
  {
    if |l| >= 2 {
      CoalesceCoalesced(l[1..]);
      assert [l[0]] + l[1..] == l;
    }
  }

  /** Coalescing a second time changes nothing. */
  lemma CoalesceIdempotent(l: seq<Node>)
    ensures Coalesce(Coalesce(l)) == Coalesce(l)
  {
    CoalesceCoalesced(Coalesce(l));
  }

  /** A node of non-negative size that no free node overlaps stays clear of the coalesced list. */
  lemma {:induction false} CoalesceKeepsFit(l: seq<Node>, m: Node)
    requires Fits(l, m) && m.size >= 0
    ensures Fits(Coalesce(l), m)
    decreases |l|
  {
    if |l| >= 2 {
      if Adjacent(l[0], l[1]) {
        var c := [Merge(l[0], l[1])] + l[2..];
        assert l[1..][1..] == l[2..];
        assert c[1..] == l[2..];
        CoalesceKeepsFit(c, m);
      } else {
        var c := Coalesce(l[1..]);
        assert ([l[0]] + c)[1..] == c;
        CoalesceKeepsFit(l[1..], m);
      }
    }
  }

  /** A head that touches its successor is merged with it before coalescing goes on. */
  lemma CoalesceMerge(l: seq<Node>)
    requires |l| >= 2 && Adjacent(l[0], l[1])
    ensures Coalesce(l) == Coalesce([Merge(l[0], l[1])] + l[2..])
  {
  }

  /** A head that does not touch its successor stays in front of the coalesced tail. */
  lemma CoalesceKeep(l: seq<Node>)
    requires |l| > 0 && !(|l| >= 2 && Adjacent(l[0], l[1]))
    ensures Coalesce(l) == [l[0]] + Coalesce(l[1..])
  {
    if |l| == 1 {
      assert l[1..] == [];
    }
  }

  /**
   One iteration of the loop of `coalesce_free_list`: splice the successor into the
   candidate when they touch, otherwise move the candidate on. What is done plus the
   coalesced remainder stays the same.
   */
  function CoalesceStep(done: seq<Node>, rest: seq<Node>): (r: (seq<Node>, seq<Node>))
    requires |rest| > 0
    ensures |r.1| < |rest|
    ensures r.0 + Coalesce(r.1) == done + Coalesce(rest)
  {
    if |rest| >= 2 && Adjacent(rest[0], rest[1]) then
      CoalesceMerge(rest);
      (done, [Merge(rest[0], rest[1])] + rest[2..])
    else
      CoalesceKeep(rest);
      (done + [rest[0]], rest[1..])
  }

  /**
   The loop of `coalesce_free_list` over the list: `done` holds the nodes the
   candidate pointer has moved past, `rest[0]` is the candidate. Each iteration
   either splices out one successor or advances, so `|rest|` falls every time.
   */
  method CoalesceFreeList(l: seq<Node>) returns (r: seq<Node>)
    ensures r == Coalesce(l)
    ensures |l| <= 1 ==> r == l
  {
    if |l| <= 1 {
      return l;
    }
    var done: seq<Node> := [];
    var rest := l;
    while |rest| > 0
      invariant done + Coalesce(rest) == Coalesce(l)
      decreases |rest|
    {
      var step := CoalesceStep(done, rest);
      done, rest := step.0, step.1;
    }
    r := done;
  }

  // ---------------------------------------------------------------------------
  // insert_node
  // ---------------------------------------------------------------------------

  /** Where `insert_node` places `n`: before the first node whose address exceeds `n.addr`. */
  function InsertionPoint(l: seq<Node>, n: Node): (k: nat)
    ensures k <= |l|
    ensures k < |l| ==> n.addr < l[k].addr
  {
    if |l| == 0 || n.addr < l[0].addr then 0 else 1 + InsertionPoint(l[1..], n)
  }

  /** Every node the scan walks past lies at or below `n.addr`. */
  lemma {:induction false} InsertionPointIsFirst(l: seq<Node>, n: Node, j: nat)
    requires j < InsertionPoint(l, n)
    ensures l[j].addr <= n.addr
  {
    if j > 0 {
      InsertionPointIsFirst(l[1..], n, j - 1);
    }
  }

  /**
   The scan of `insert_node` before it coalesces: walk while the node does not lie
   below the current one, then link it in front of it (or at the tail). Every old
   node keeps its relative order.
   */
  function InsertOrdered(l: seq<Node>, n: Node): (r: seq<Node>)
    ensures r == l[..InsertionPoint(l, n)] + [n] + l[InsertionPoint(l, n)..]
  {
    if |l| == 0 || n.addr < l[0].addr then [n] + l
    else
      ConsSlices(l, InsertionPoint(l, n));
      [l[0]] + InsertOrdered(l[1..], n)
  }

  lemma ConsSlices(l: seq<Node>, k: nat)
    requires 1 <= k <= |l|
    ensures l[..k] == [l[0]] + l[1..][..k - 1]
    ensures l[k..] == l[1..][k - 1..]
  {
  }

  /** `insert_node`: the ordered insert followed by `coalesce_free_list`. */
  function InsertNode(l: seq<Node>, n: Node): (r: seq<Node>)
    ensures Bytes(r) == Bytes(l) + n.size + NodeBytes
  {
    InsertOrderedContents(l, n);
    CoalesceConservesBytes(InsertOrdered(l, n));
    Coalesce(InsertOrdered(l, n))
  }

  predicate AddrAbsent(l: seq<Node>, a: int)
    decreases |l|
  {
    |l| == 0 || (l[0].addr != a && AddrAbsent(l[1..], a))
  }

  /** `n` shares no byte with any node of `l`. */
  predicate Fits(l: seq<Node>, n: Node)
    decreases |l|
  {
    |l| == 0 || ((End(l[0]) <= n.addr || End(n) <= l[0].addr) && Fits(l[1..], n))
  }

  lemma InsertOrderedContents(l: seq<Node>, n: Node)
    ensures multiset(InsertOrdered(l, n)) == multiset(l) + multiset{n}
    ensures Bytes(InsertOrdered(l, n)) == Bytes(l) + n.size + NodeBytes
  {
    var k := InsertionPoint(l, n);
    assert l == l[..k] + l[k..];
    BytesAppend(l[..k], l[k..]);
    BytesAppend(l[..k] + [n], l[k..]);
    BytesAppend(l[..k], [n]);
  }

  /** One step of the scan: past a head that does not exceed `n`, the insert happens in the tail. */
  lemma InsertOrderedStep(l: seq<Node>, n: Node)
    requires |l| > 0 && l[0].addr <= n.addr
    ensures InsertOrdered(l, n) == [l[0]] + InsertOrdered(l[1..], n)
    ensures InsertOrdered(l[1..], n)[0] == n || InsertOrdered(l[1..], n)[0] == l[1]
    ensures InsertOrdered(l[1..], n)[1..] == if |l| == 1 || n.addr < l[1].addr then l[1..] else InsertOrdered(l[2..], n)
  {
    var t := l[1..];
    if |t| > 0 {
      assert t[1..] == l[2..];
    }
  }

  /** Given an ordered list without `n`'s address, the ordered insert keeps it ordered. */
  lemma {:induction false} InsertOrderedKeepsOrder(l: seq<Node>, n: Node)
    requires Ordered(l) && AddrAbsent(l, n.addr)
    ensures Ordered(InsertOrdered(l, n))
    decreases |l|
  {
    if |l| == 0 || n.addr < l[0].addr {
      assert ([n] + l)[1..] == l;
    } else {
      InsertOrderedStep(l, n);
      InsertOrderedKeepsOrder(l[1..], n);
      assert ([l[0]] + InsertOrdered(l[1..], n))[1..] == InsertOrdered(l[1..], n);
    }
  }

  /** A node that fits in a gap of a disjoint list leaves it disjoint once inserted. */
  lemma {:induction false} InsertOrderedKeepsDisjoint(l: seq<Node>, n: Node)
    requires Disjoint(l) && NonNegative(l) && n.size >= 0 && Fits(l, n)
    ensures Disjoint(InsertOrdered(l, n)) && NonNegative(InsertOrdered(l, n))
    decreases |l|
  {
    if |l| == 0 || n.addr < l[0].addr {
      assert ([n] + l)[1..] == l;
    } else {
      InsertOrderedStep(l, n);
      InsertOrderedKeepsDisjoint(l[1..], n);
      assert ([l[0]] + InsertOrdered(l[1..], n))[1..] == InsertOrdered(l[1..], n);
    }
  }

  /** Inserting a node that shares no byte with `m` keeps the list clear of `m`. */
  lemma {:induction false} InsertOrderedKeepsFit(l: seq<Node>, n: Node, m: Node)
    requires Fits(l, m) && (End(n) <= m.addr || End(m) <= n.addr)
    ensures Fits(InsertOrdered(l, n), m)
    decreases |l|
  {
    if |l| == 0 || n.addr < l[0].addr {
      assert ([n] + l)[1..] == l;
    } else {
      InsertOrderedKeepsFit(l[1..], n, m);
      assert ([l[0]] + InsertOrdered(l[1..], n))[1..] == InsertOrdered(l[1..], n);
    }
  }

  /** The ordered insert covers exactly the old bytes and those of the new node. */
  lemma {:induction false} InsertOrderedCover(l: seq<Node>, n: Node, x: int)
    ensures Covered(InsertOrdered(l, n), x) <==> Covered(l, x) || n.addr <= x < End(n)
    ensures NonNegative(l) && n.size >= 0 ==> NonNegative(InsertOrdered(l, n))
    decreases |l|
  {
    if |l| == 0 || n.addr < l[0].addr {
      assert ([n] + l)[1..] == l;
    } else {
      InsertOrderedCover(l[1..], n, x);
      assert ([l[0]] + InsertOrdered(l[1..], n))[1..] == InsertOrdered(l[1..], n);
    }
  }

  /**
   `insert_node` of a node of non-negative size into a list of non-negative sizes:
   a byte is covered afterwards exactly when it was covered before or lies in the node.
   */
  lemma InsertNodeCover(l: seq<Node>, n: Node, x: int)
    requires NonNegative(l) && n.size >= 0
    ensures Covered(InsertNode(l, n), x) <==> Covered(l, x) || n.addr <= x < End(n)
  {
    InsertOrderedCover(l, n, x);
    CoalesceKeepsCover(InsertOrdered(l, n), x);
  }

  /**
   `insert_node` of a node that shares no byte with `m`, a node of non-negative size
   clear of the whole list, leaves the list clear of `m`.
   */
  lemma InsertNodeKeepsFit(l: seq<Node>, n: Node, m: Node)
    requires Fits(l, m) && m.size >= 0 && (End(n) <= m.addr || End(m) <= n.addr)
    ensures Fits(InsertNode(l, n), m)
  {
    InsertOrderedKeepsFit(l, n, m);
    CoalesceKeepsFit(InsertOrdered(l, n), m);
  }

  /**
   `insert_node` on an ordered list and a fresh address: the result is ordered,
   coalesced, and covers the old bytes plus the new node's.
   */
  lemma InsertNodeProperties(l: seq<Node>, n: Node)
    requires Ordered(l) && AddrAbsent(l, n.addr)
    ensures Ordered(InsertNode(l, n))
    ensures Coalesced(InsertNode(l, n))
    ensures Bytes(InsertNode(l, n)) == Bytes(l) + n.size + NodeBytes
    ensures |InsertNode(l, n)| <= |l| + 1
  {
    InsertOrderedKeepsOrder(l, n);
    InsertOrderedContents(l, n);
    CoalesceKeepsOrder(InsertOrdered(l, n));
    CoalesceConservesBytes(InsertOrdered(l, n));
  }

  /** `insert_node` of a node that fits keeps the list free of overlaps and of touching nodes. */
  lemma InsertNodeSeparates(l: seq<Node>, n: Node)
    requires Disjoint(l) && NonNegative(l) && n.size >= 0 && Fits(l, n)
    ensures Separated(InsertNode(l, n)) && NonNegative(InsertNode(l, n))
  {
    InsertOrderedKeepsDisjoint(l, n);
    CoalesceSeparates(InsertOrdered(l, n));
    CoalesceKeepsDisjoint(InsertOrdered(l, n));
  }

  // ---------------------------------------------------------------------------
  // find_cell_for_space
  // ---------------------------------------------------------------------------

  /** Index of the first node, in address order, whose size is strictly greater than `need`. */
  function FirstFit(l: seq<Node>, need: int): (k: nat)
    ensures k <= |l|
    ensures k < |l| ==> l[k].size > need
  {
    if |l| == 0 || l[0].size > need then 0 else 1 + FirstFit(l[1..], need)
  }

  /** No node before the first fit is strictly larger than `need`. */
  lemma {:induction false} FirstFitIsFirst(l: seq<Node>, need: int, j: nat)
    requires j < FirstFit(l, need)
    ensures l[j].size <= need
  {
    if j > 0 {
      FirstFitIsFirst(l[1..], need, j - 1);
    }
  }

  /**
   `find_cell_for_space`: unlink and return the first node whose size strictly
   exceeds the requirement (an exact fit is passed over); NULL, with the list
   untouched, when there is none.
   */
  function FindCellForSpace(l: seq<Node>, need: int): (r: (Option<Node>, seq<Node>))
    ensures FirstFit(l, need) == |l| ==> r.0 == None && r.1 == l
    ensures FirstFit(l, need) < |l| ==> r.0 == Some(l[FirstFit(l, need)])
    ensures FirstFit(l, need) < |l| ==> r.1 == l[..FirstFit(l, need)] + l[FirstFit(l, need) + 1..]
  {
    if |l| == 0 then (None, l)
    else if l[0].size > need then
      assert FirstFit(l, need) == 0 && l[..0] + l[1..] == l[1..];
      (Some(l[0]), l[1..])
    else
      var rec := FindCellForSpace(l[1..], need);
      FindCellStep(l, need, rec.0, rec.1);
      (rec.0, [l[0]] + rec.1)
  }

  /** A search that walks past the head finds what the search of the tail finds. */
  lemma FindCellStep(l: seq<Node>, need: int, found: Option<Node>, rest: seq<Node>)
    requires |l| > 0 && l[0].size <= need
    requires FirstFit(l[1..], need) == |l| - 1 ==> found == None && rest == l[1..]
    requires FirstFit(l[1..], need) < |l| - 1 ==>
      && found == Some(l[1..][FirstFit(l[1..], need)])
      && rest == l[1..][..FirstFit(l[1..], need)] + l[1..][FirstFit(l[1..], need) + 1..]
    ensures FirstFit(l, need) == |l| ==> found == None && [l[0]] + rest == l
    ensures FirstFit(l, need) < |l| ==> found == Some(l[FirstFit(l, need)])
    ensures FirstFit(l, need) < |l| ==> [l[0]] + rest == l[..FirstFit(l, need)] + l[FirstFit(l, need) + 1..]
  {
    var k := FirstFit(l[1..], need);
    assert FirstFit(l, need) == k + 1;
    if k < |l| - 1 {
      UnlinkCons(l, k, rest);
    } else {
      assert [l[0]] + l[1..] == l;
    }
  }

  /** Unlinking behind the head is unlinking from the tail, with the head kept in front. */
  lemma UnlinkCons(l: seq<Node>, k: nat, rest: seq<Node>)
    ensures k + 1 < |l| && rest == l[1..][..k] + l[1..][k + 1..] ==> [l[0]] + rest == l[..k + 1] + l[k + 2..]
  {
    UnlinkBehindHead(l, k);
  }

  lemma UnlinkBehindHead(l: seq<Node>, k: nat)
    ensures k + 1 < |l| ==> l[..k + 1] + l[k + 2..] == [l[0]] + (l[1..][..k] + l[1..][k + 1..])
  {
  }

  /** Unlinking one node drops exactly its bytes. */
  lemma {:induction false} UnlinkBytes(l: seq<Node>, k: nat)
    requires k < |l|
    ensures Bytes(l[..k] + l[k + 1..]) == Bytes(l) - (l[k].size + NodeBytes)
    decreases k
  {
    if k == 0 {
      assert l[..0] + l[1..] == l[1..];
    } else {
      var rest := l[1..][..k - 1] + l[1..][k..];
      UnlinkBytes(l[1..], k - 1);
      UnlinkBehindHead(l, k - 1);
      assert ([l[0]] + rest)[1..] == rest;
    }
  }

  /** Unlinking one node keeps a well-formed list well formed: gaps only grow. */
  lemma {:induction false} UnlinkKeepsSeparated(l: seq<Node>, k: nat)
    requires k < |l| && NonNegative(l) && Separated(l)
    ensures NonNegative(l[..k] + l[k + 1..]) && Separated(l[..k] + l[k + 1..])
    decreases k
  {
    var r := l[..k] + l[k + 1..];
    if k == 0 {
      assert r == l[1..];
    } else {
      var t := l[1..];
      UnlinkBehindHead(l, k - 1);
      UnlinkKeepsSeparated(t, k - 1);
      var r' := t[..k - 1] + t[k..];
      assert r == [l[0]] + r';
      assert r[1..] == r';
      if |r'| > 0 {
        if k - 1 == 0 {
          assert r'[0] == l[2];
          assert l[1..][1..] == l[2..];
          assert End(l[0]) < l[1].addr <= End(l[1]) < l[2].addr;
        } else {
          assert r'[0] == l[1];
        }
      }
    }
  }

  /** A node lying inside the node that was unlinked shares no byte with the nodes left. */
  lemma {:induction false} UnlinkedRangeFits(l: seq<Node>, k: nat, m: Node)
    requires k < |l| && NonNegative(l) && Separated(l)
    requires l[k].addr <= m.addr && End(m) <= End(l[k])
    ensures Fits(l[..k] + l[k + 1..], m)
    decreases k
  {
    var r := l[..k] + l[k + 1..];
    if k == 0 {
      assert r == l[1..];
      FitsBelowHead(l[1..], m);
    } else {
      var t := l[1..];
      UnlinkBehindHead(l, k - 1);
      assert t[k - 1] == l[k];
      UnlinkedRangeFits(t, k - 1, m);
      var r' := t[..k - 1] + t[k..];
      assert r == [l[0]] + r';
      assert r[1..] == r';
      SeparatedHeadBelow(l, k);
    }
  }

  /** A node inside another that fits in a list fits there too. */
  lemma {:induction false} FitsWithin(l: seq<Node>, outer: Node, m: Node)
    requires Fits(l, outer) && outer.addr <= m.addr && End(m) <= End(outer)
    ensures Fits(l, m)
    decreases |l|
  {
    if |l| > 0 {
      FitsWithin(l[1..], outer, m);
    }
  }

  lemma {:induction false} SeparatedDisjoint(l: seq<Node>)
    requires Separated(l)
    ensures Disjoint(l)
    decreases |l|
  {
    if |l| > 1 {
      SeparatedDisjoint(l[1..]);
    }
  }

  /** A node that ends at or before the head of a separated list, nothing negative in it, fits. */
  lemma {:induction false} FitsBelowHead(l: seq<Node>, m: Node)
    requires Separated(l) && NonNegative(l) && (|l| > 0 ==> End(m) <= l[0].addr)
    ensures Fits(l, m)
    decreases |l|
  {
    if |l| > 0 {
      FitsBelowHead(l[1..], m);
    }
  }

  /** In a separated list, every later node starts after the head ends. */
  lemma {:induction false} SeparatedHeadBelow(l: seq<Node>, k: nat)
    requires Separated(l) && NonNegative(l) && 0 < k < |l|
    ensures End(l[0]) < l[k].addr
    decreases k
  {
    if k > 1 {
      SeparatedHeadBelow(l[1..], k - 1);
    }
  }

  // ---------------------------------------------------------------------------
  // free_list_length
  // ---------------------------------------------------------------------------

  /** The number of neighbours in `l` where a node ends exactly where its successor begins. */
  function AdjacentPairs(l: seq<Node>): (n: nat)
    decreases |l|
  {
    if |l| <= 1 then 0
    else (if Adjacent(l[0], l[1]) then 1 else 0) + AdjacentPairs(l[1..])
  }

  /**
   Each merge removes one node, and a merged node ends where its second half ended,
   so it touches the next node exactly when that half did: coalescing leaves one node
   per touching pair fewer.
   */
  lemma {:induction false} CoalesceCount(l: seq<Node>)
    decreases |l|
    ensures AdjacentPairs(l) <= |l| && |Coalesce(l)| == |l| - AdjacentPairs(l)
  {
    if |l| >= 2 {
      if Adjacent(l[0], l[1]) {
        var m := [Merge(l[0], l[1])] + l[2..];
        assert m[1..] == l[2..] == l[1..][1..];
        if |l| >= 3 {
          assert Adjacent(m[0], m[1]) == Adjacent(l[1], l[2]);
        }
        assert AdjacentPairs(m) == AdjacentPairs(l[1..]);
        CoalesceCount(m);
      } else {
        CoalesceCount(l[1..]);
      }
    }
  }

  /** Coalescing keeps the covered bytes, for every byte at once. */
  lemma CoalesceCoversAll(l: seq<Node>)
    ensures NonNegative(l) ==> forall x :: Covered(Coalesce(l), x) <==> Covered(l, x)
  {
    if NonNegative(l) {
      forall x
        ensures Covered(Coalesce(l), x) <==> Covered(l, x)
      {
        CoalesceKeepsCover(l, x);
      }
    }
  }

  /**
   `free_list_length`: coalesce, then count. Returns the count together with the
   list as the coalescing pass left it.
   */
  function FreeListLength(l: seq<Node>): (r: (nat, seq<Node>))
    ensures r.1 == Coalesce(l)
    ensures r.0 == |r.1| == |l| - AdjacentPairs(l) <= |l|
    ensures r.0 == 0 <==> |l| == 0
    ensures |l| <= 1 ==> r.0 == |l|
    ensures Coalesced(r.1) && Bytes(r.1) == Bytes(l)
    ensures NonNegative(l) ==> forall x :: Covered(r.1, x) <==> Covered(l, x)
    ensures Ordered(l) ==> Ordered(r.1)
  {
    var c := Coalesce(l);
    CoalesceConservesBytes(l);
    CoalesceCount(l);
    CoalesceCoversAll(l);
    if Ordered(l) then
      CoalesceKeepsOrder(l);
      (|c|, c)
    else
      (|c|, c)
  }
}

=== FILE: global_heap.dfy ===
/**
 Allocation and release over the global free list of hmem.c (`hmalloc`, `hfree`,
 `hgetstats`, `hrealloc`). The 8-byte `header_t` in front of each live block is kept
 in `headers`, a map from the header's address to the size it records. Pages come
 from `mmap`; the address the mapping returns is a parameter.
 */
module GlobalHeap {
  import opened Wrappers
  import opened FreeList
  import opened Powers

  /** `sizeof(header_t)`, also `sizeof(size_t)`. */
  const HeaderBytes: int := 8

  /** `size_t` arithmetic wraps at 2^64. */
  const SizeLimit: int := 0x1_0000_0000_0000_0000

  /** Largest value a C `int` holds. */
  const IntMax: int := 0x7FFF_FFFF

  datatype Stats = Stats(
    pagesMapped: int,
    pagesUnmapped: int,
    chunksAllocated: int,
    chunksFreed: int,
    freeLength: int)

  datatype Heap = Heap(freeList: seq<Node>, headers: map<int, nat>, stats: Stats)

  /** The free-list invariant: sizes are non-negative and no two nodes overlap or touch. */
  predicate WellFormed(l: seq<Node>) {
    NonNegative(l) && Separated(l)
  }

  /** `div_up`: the number of `y`-byte units needed to hold `x` bytes. */
  function DivUp(x: nat, y: nat): (r: nat)
    requires y > 0
    ensures r * y >= x
    ensures (r - 1) * y < x
  {
    var z := x / y;
    assert z * y <= x < z * y + y;
    if z * y == x then z else z + 1
  }

  /** The routing test of `hmalloc`: a request plus its header stays below one page. */
  predicate IsSmall(request: int) {
    request + HeaderBytes < PageSize
  }

  /**
   What is left of `n` once its first `size` bytes are handed out: a node whose header
   starts right behind those bytes and which ends where `n` ends.
   */
  function Tail(n: Node, size: int): (t: Node)
    ensures t.addr == n.addr + size && End(t) == End(n)
  {
    Node(n.addr + size, n.size - size)
  }

  /** The bytes of a fresh page, viewed as one node. */
  function PageNode(page: int): (n: Node)
    ensures n.addr == page && End(n) == page + PageSize
  {
    Node(page, PageSize - NodeBytes)
  }

  /**
   The free list after a block of `size` bytes is carved from the front of the unlinked
   node `n`: what is left of `n` goes back only when its size exceeds a node header.
   */
  function ReturnNodeTail(rest: seq<Node>, n: Node, size: int): (l: seq<Node>)
    ensures n.size - size > NodeBytes ==> l == InsertNode(rest, Tail(n, size))
    ensures n.size - size <= NodeBytes ==> l == rest
    ensures Bytes(l) == Bytes(rest) + (if n.size - size > NodeBytes then n.size - size + NodeBytes else 0)
  {
    var tail := Tail(n, size);
    if tail.size > NodeBytes then
      InsertNode(rest, tail)
    else rest
  }

  /**
   The free list after a block of `size` bytes is carved from the front of a fresh page:
   the tail of the page goes back when it can hold a node header and at least one byte.
   */
  function ReturnPageTail(l: seq<Node>, page: int, size: int): (r: seq<Node>)
    ensures PageSize - size > NodeBytes ==> r == InsertNode(l, Tail(PageNode(page), size))
    ensures PageSize - size <= NodeBytes ==> r == l
    ensures Bytes(r) == Bytes(l) + (if PageSize - size > NodeBytes then PageSize - size else 0)
  {
    var tail := Tail(PageNode(page), size);
    if PageSize - size > NodeBytes then
      InsertNode(l, tail)
    else l
  }

  /**
   `hmalloc(request)`, returning the new heap and the payload address. A small request
   is carved from the first free node that is strictly larger than request + 8, or
   else from a fresh page at `page`. A large request maps whole pages at `page` and
   records their byte count.
   */
  function HMalloc(h: Heap, request: nat, page: int): (r: (Heap, int))
    requires request + HeaderBytes < SizeLimit
    ensures r.0.stats.chunksAllocated == h.stats.chunksAllocated + 1
    ensures r.0.stats.chunksFreed == h.stats.chunksFreed
    ensures r.0.stats.pagesUnmapped == h.stats.pagesUnmapped
    ensures r.1 - HeaderBytes in r.0.headers
    ensures r.0.headers == h.headers[r.1 - HeaderBytes := r.0.headers[r.1 - HeaderBytes]]
    ensures IsSmall(request) ==> r.0.headers[r.1 - HeaderBytes] == request
    ensures IsSmall(request) ==>
      var k := FirstFit(h.freeList, request + HeaderBytes);
      if k < |h.freeList| then
        r.1 == h.freeList[k].addr + HeaderBytes && r.0.stats.pagesMapped == h.stats.pagesMapped
      else
        r.1 == page + HeaderBytes && r.0.stats.pagesMapped == h.stats.pagesMapped + 1
    ensures !IsSmall(request) ==>
      && r.1 == page + HeaderBytes
      && r.0.headers[page] == DivUp(request + HeaderBytes, PageSize) * PageSize
      && r.0.stats.pagesMapped == h.stats.pagesMapped + DivUp(request + HeaderBytes, PageSize)
      && r.0.freeList == h.freeList
  {
    var size := request + HeaderBytes;
    var stats := h.stats.(chunksAllocated := h.stats.chunksAllocated + 1);
    if size < PageSize then
      var fit := FindCellForSpace(h.freeList, size);
      if fit.0.Some? then
        var n := fit.0.value;
        (Heap(ReturnNodeTail(fit.1, n, size), h.headers[n.addr := size - HeaderBytes], stats), n.addr + HeaderBytes)
      else
        (Heap(ReturnPageTail(h.freeList, page, size), h.headers[page := size - HeaderBytes],
              stats.(pagesMapped := stats.pagesMapped + 1)),
         page + HeaderBytes)
    else
      var pages := DivUp(size, PageSize);
      (Heap(h.freeList, h.headers[page := pages * PageSize], stats.(pagesMapped := stats.pagesMapped + pages)),
       page + HeaderBytes)
  }

  /**
   Allocation writes one header, the new block's: every header of a block already
   live keeps its address and its recorded size, which is what `hfree` reads later.
   */
  lemma HMallocKeepsHeaders(h: Heap, request: nat, page: int)
    requires request + HeaderBytes < SizeLimit
    ensures var r := HMalloc(h, request, page);
      && r.0.headers.Keys == h.headers.Keys + {r.1 - HeaderBytes}
      && forall x | x in h.headers && x != r.1 - HeaderBytes :: x in r.0.headers && r.0.headers[x] == h.headers[x]
  {
  }

  /**
   How a small request split the first fit `l[k]` in `r`: the payload starts 8 bytes
   into the node, and the leftover node starts where the payload ends and ends where
   the node ended. The leftover goes back on the list only when its size exceeds 16;
   otherwise its bytes stay attached to the block unrecorded.
   */
  predicate FitSplit(l: seq<Node>, k: nat, request: int, r: (Heap, int))
    requires k < |l|
  {
    var remaining := l[k].size - (request + HeaderBytes);
    var leftover := Node(r.1 + request, remaining);
    && remaining > 0
    && r.1 == l[k].addr + HeaderBytes
    && End(leftover) == End(l[k])
    && (remaining > NodeBytes ==> r.0.freeList == InsertNode(l[..k] + l[k + 1..], leftover))
    && (remaining <= NodeBytes ==> r.0.freeList == l[..k] + l[k + 1..])
    && Bytes(r.0.freeList)
       == Bytes(l) - (l[k].size + NodeBytes) + (if remaining > NodeBytes then remaining + NodeBytes else 0)
  }

  /** A small request served from the first fit splits it as `FitSplit` says. */
  lemma HMallocFromFreeList(h: Heap, request: nat, page: int)
    requires IsSmall(request)
    requires FirstFit(h.freeList, request + HeaderBytes) < |h.freeList|
    ensures FitSplit(h.freeList, FirstFit(h.freeList, request + HeaderBytes), request, HMalloc(h, request, page))
  {
    HMallocSmallList(h, request, page);
    SplitNode(h.freeList, FirstFit(h.freeList, request + HeaderBytes), request, HMalloc(h, request, page));
  }

  /** Carving `request + 8` bytes off the front of `l[k]` and returning the tail splits it. */
  lemma SplitNode(l: seq<Node>, k: nat, request: int, r: (Heap, int))
    requires k < |l| && l[k].size > request + HeaderBytes
    requires r.1 == l[k].addr + HeaderBytes
    requires r.0.freeList == ReturnNodeTail(l[..k] + l[k + 1..], l[k], request + HeaderBytes)
    ensures FitSplit(l, k, request, r)
  {
    assert Tail(l[k], request + HeaderBytes) == Node(r.1 + request, l[k].size - (request + HeaderBytes));
    UnlinkBytes(l, k);
  }

  /**
   How a small request split a fresh page at `page` in `r`: the payload starts 8 bytes
   into the page, and the leftover node starts where the payload ends and ends with the
   page. It is inserted only when 4096 - (request + 8) > 16.
   */
  predicate PageSplit(l: seq<Node>, page: int, request: int, r: (Heap, int))
  {
    var size := request + HeaderBytes;
    var leftover := Node(r.1 + request, PageSize - size - NodeBytes);
    && r.1 == page + HeaderBytes
    && End(leftover) == page + PageSize
    && (PageSize - size > NodeBytes ==> r.0.freeList == InsertNode(l, leftover))
    && (PageSize - size <= NodeBytes ==> r.0.freeList == l)
    && Bytes(r.0.freeList) == Bytes(l) + (if PageSize - size > NodeBytes then PageSize - size else 0)
  }

  /** A small request with no fit splits a fresh page as `PageSplit` says. */
  lemma HMallocFromFreshPage(h: Heap, request: nat, page: int)
    requires IsSmall(request)
    requires FirstFit(h.freeList, request + HeaderBytes) == |h.freeList|
    ensures PageSplit(h.freeList, page, request, HMalloc(h, request, page))
  {
    HMallocSmallList(h, request, page);
    SplitPage(h.freeList, page, request, HMalloc(h, request, page));
  }

  /** Carving `request + 8` bytes off the front of a fresh page and returning the tail splits it. */
  lemma SplitPage(l: seq<Node>, page: int, request: int, r: (Heap, int))
    requires r.1 == page + HeaderBytes
    requires r.0.freeList == ReturnPageTail(l, page, request + HeaderBytes)
    ensures PageSplit(l, page, request, r)
  {
    assert Tail(PageNode(page), request + HeaderBytes)
      == Node(r.1 + request, PageSize - (request + HeaderBytes) - NodeBytes);
  }

  /** A large block records a whole number of pages, at least one, enough for header and payload. */
  lemma HMallocLargeRecords(h: Heap, request: nat, page: int)
    requires !IsSmall(request) && request + HeaderBytes < SizeLimit
    ensures var recorded := HMalloc(h, request, page).0.headers[page];
      && recorded % PageSize == 0
      && PageSize <= recorded
      && request + HeaderBytes <= recorded < request + HeaderBytes + PageSize
  {
  }

  /** `insert_node` of a node that overlaps no free node keeps the list well formed. */
  lemma InsertFitKeepsWellFormed(l: seq<Node>, n: Node)
    requires WellFormed(l) && n.size >= 0 && Fits(l, n)
    ensures WellFormed(InsertNode(l, n))
  {
    SeparatedDisjoint(l);
    InsertNodeSeparates(l, n);
  }

  /** Carving from the front of a free node and returning the tail keeps the list well formed. */
  lemma ReturnNodeTailKeepsWellFormed(l: seq<Node>, k: nat, size: int)
    requires WellFormed(l) && k < |l| && 0 <= size < l[k].size
    ensures WellFormed(ReturnNodeTail(l[..k] + l[k + 1..], l[k], size))
  {
    var n := l[k];
    var rest := l[..k] + l[k + 1..];
    UnlinkKeepsSeparated(l, k);
    var tail := Tail(n, size);
    if tail.size > NodeBytes {
      UnlinkedRangeFits(l, k, tail);
      InsertFitKeepsWellFormed(rest, tail);
    }
  }

  /** Returning the tail of a fresh page that overlaps no free node keeps the list well formed. */
  lemma ReturnPageTailKeepsWellFormed(l: seq<Node>, page: int, size: int)
    requires WellFormed(l) && Fits(l, PageNode(page)) && 0 <= size
    ensures WellFormed(ReturnPageTail(l, page, size))
  {
    var tail := Tail(PageNode(page), size);
    if PageSize - size > NodeBytes {
      FitsWithin(l, PageNode(page), tail);
      InsertFitKeepsWellFormed(l, tail);
      assert ReturnPageTail(l, page, size) == InsertNode(l, tail);
    } else {
      assert ReturnPageTail(l, page, size) == l;
    }
  }

  /** The free list a small `hmalloc` leaves: a split first fit, or a split fresh page. */
  lemma HMallocSmallList(h: Heap, request: nat, page: int)
    requires IsSmall(request)
    ensures FirstFit(h.freeList, request + HeaderBytes) < |h.freeList| ==>
      HMalloc(h, request, page).0.freeList
      == ReturnNodeTail(
           h.freeList[..FirstFit(h.freeList, request + HeaderBytes)]
           + h.freeList[FirstFit(h.freeList, request + HeaderBytes) + 1..],
           h.freeList[FirstFit(h.freeList, request + HeaderBytes)], request + HeaderBytes)
    ensures FirstFit(h.freeList, request + HeaderBytes) == |h.freeList| ==>
      HMalloc(h, request, page).0.freeList == ReturnPageTail(h.freeList, page, request + HeaderBytes)
  {
    var l, size := h.freeList, request + HeaderBytes;
    var fit := FindCellForSpace(l, size);
    if FirstFit(l, size) < |l| {
      assert fit.0.Some? && fit.0.value == l[FirstFit(l, size)];
    } else {
      assert fit.0.None?;
    }
  }

  /** `hmalloc` keeps the free list well formed, provided a fresh page overlaps no free node. */
  lemma HMallocKeepsWellFormed(h: Heap, request: nat, page: int)
    requires request + HeaderBytes < SizeLimit
    requires WellFormed(h.freeList) && Fits(h.freeList, PageNode(page))
    ensures WellFormed(HMalloc(h, request, page).0.freeList)
  {
    var l := h.freeList;
    var size := request + HeaderBytes;
    if size < PageSize {
      HMallocSmallList(h, request, page);
      var k := FirstFit(l, size);
      if k < |l| {
        ReturnNodeTailKeepsWellFormed(l, k, size);
      } else {
        ReturnPageTailKeepsWellFormed(l, page, size);
      }
    }
  }

  /**
   After a small `hmalloc` over a well-formed list, the block it hands out, taken as the
   node `hfree` will make of it, shares no byte with any free node: the leftover goes
   back behind the block, never over it.
   */
  lemma HMallocBlockClear(h: Heap, request: nat, page: int)
    requires HeaderBytes <= request && IsSmall(request)
    requires WellFormed(h.freeList) && Fits(h.freeList, PageNode(page))
    ensures Fits(HMalloc(h, request, page).0.freeList,
                 Node(HMalloc(h, request, page).1 - HeaderBytes, request - HeaderBytes))
  {
    if FirstFit(h.freeList, request + HeaderBytes) < |h.freeList| {
      HMallocFitClear(h, request, page);
    } else {
      HMallocPageClear(h, request, page);
    }
  }

  /** The first-fit case of `HMallocBlockClear`: the block came out of a free node. */
  lemma HMallocFitClear(h: Heap, request: nat, page: int)
    requires HeaderBytes <= request && IsSmall(request) && WellFormed(h.freeList)
    requires FirstFit(h.freeList, request + HeaderBytes) < |h.freeList|
    ensures Fits(HMalloc(h, request, page).0.freeList,
                 Node(HMalloc(h, request, page).1 - HeaderBytes, request - HeaderBytes))
  {
    var k := FirstFit(h.freeList, request + HeaderBytes);
    var r := HMalloc(h, request, page);
    HMallocFromFreeList(h, request, page);
    assert FitSplit(h.freeList, k, request, r);
    FitSplitClear(h.freeList, k, request, r);
  }

  /** The fresh-page case of `HMallocBlockClear`: the block is the head of a new page. */
  lemma HMallocPageClear(h: Heap, request: nat, page: int)
    requires HeaderBytes <= request && IsSmall(request) && Fits(h.freeList, PageNode(page))
    requires FirstFit(h.freeList, request + HeaderBytes) == |h.freeList|
    ensures Fits(HMalloc(h, request, page).0.freeList,
                 Node(HMalloc(h, request, page).1 - HeaderBytes, request - HeaderBytes))
  {
    HMallocFromFreshPage(h, request, page);
    PageSplitClear(h.freeList, page, request, HMalloc(h, request, page));
  }

  /** After a first-fit split, the block handed out overlaps no node left on the list. */
  lemma FitSplitClear(l: seq<Node>, k: nat, request: int, r: (Heap, int))
    requires k < |l| && WellFormed(l) && HeaderBytes <= request
    requires FitSplit(l, k, request, r)
    ensures Fits(r.0.freeList, Node(r.1 - HeaderBytes, request - HeaderBytes))
  {
    var m := Node(r.1 - HeaderBytes, request - HeaderBytes);
    var remaining := l[k].size - (request + HeaderBytes);
    UnlinkedRangeFits(l, k, m);
    if remaining > NodeBytes {
      InsertNodeKeepsFit(l[..k] + l[k + 1..], Node(r.1 + request, remaining), m);
    }
  }

  /** After a fresh-page split, the block handed out overlaps no node on the list. */
  lemma PageSplitClear(l: seq<Node>, page: int, request: int, r: (Heap, int))
    requires HeaderBytes <= request && IsSmall(request) && Fits(l, PageNode(page))
    requires PageSplit(l, page, request, r)
    ensures Fits(r.0.freeList, Node(r.1 - HeaderBytes, request - HeaderBytes))
  {
    var m := Node(r.1 - HeaderBytes, request - HeaderBytes);
    FitsWithin(l, PageNode(page), m);
    if PageSize - (request + HeaderBytes) > NodeBytes {
      InsertNodeKeepsFit(l, Node(r.1 + request, PageSize - (request + HeaderBytes) - NodeBytes), m);
    }
  }

  /**
   `hfree(item)`: the header 8 bytes before `item` says where the block goes. A block
   recording less than a page becomes a free node of size recorded - 8 at the header's
   address; anything else is unmapped and its pages counted.
   */
  function HFree(h: Heap, item: int): (r: Heap)
    requires item - HeaderBytes in h.headers
    requires h.headers[item - HeaderBytes] < PageSize ==> h.headers[item - HeaderBytes] >= HeaderBytes
    ensures r.stats.chunksFreed == h.stats.chunksFreed + 1
    ensures r.stats.chunksAllocated == h.stats.chunksAllocated
    ensures r.stats.pagesMapped == h.stats.pagesMapped
    ensures r.headers == h.headers
    ensures var recorded := h.headers[item - HeaderBytes];
      if recorded < PageSize then
        && r.stats.pagesUnmapped == h.stats.pagesUnmapped
        && Bytes(r.freeList) == Bytes(h.freeList) + HeaderBytes + recorded
        && Coalesced(r.freeList)
      else
        && r.stats.pagesUnmapped == h.stats.pagesUnmapped + DivUp(recorded, PageSize)
        && r.freeList == h.freeList
  {
    var block := item - HeaderBytes;
    var recorded := h.headers[block];
    var stats := h.stats.(chunksFreed := h.stats.chunksFreed + 1);
    if recorded < PageSize then
      var n := Node(block, recorded - HeaderBytes);
      h.(freeList := InsertNode(h.freeList, n), stats := stats)
    else
      h.(stats := stats.(pagesUnmapped := stats.pagesUnmapped + DivUp(recorded, PageSize)))
  }

  /** `hfree` keeps the free list well formed when the released block overlaps no free node. */
  lemma HFreeKeepsWellFormed(h: Heap, item: int)
    requires item - HeaderBytes in h.headers
    requires h.headers[item - HeaderBytes] < PageSize ==> h.headers[item - HeaderBytes] >= HeaderBytes
    requires WellFormed(h.freeList)
    requires h.headers[item - HeaderBytes] < PageSize ==>
      Fits(h.freeList, Node(item - HeaderBytes, h.headers[item - HeaderBytes] - HeaderBytes))
    ensures WellFormed(HFree(h, item).freeList)
  {
    var recorded := h.headers[item - HeaderBytes];
    if recorded < PageSize {
      InsertFitKeepsWellFormed(h.freeList, Node(item - HeaderBytes, recorded - HeaderBytes));
    }
  }

  /**
   What `hfree` needs of the heap an allocation of `request` bytes leaves behind: the
   header records the request, the list is well formed, and the block `hfree` will
   insert overlaps no free node.
   */
  predicate ReadyToFree(m: (Heap, int), request: int)
  {
    && m.1 - HeaderBytes in m.0.headers
    && m.0.headers[m.1 - HeaderBytes] == request
    && WellFormed(m.0.freeList)
    && Fits(m.0.freeList, Node(m.1 - HeaderBytes, request - HeaderBytes))
  }

  /**
   A small `hmalloc` over a well-formed list leaves the heap ready to free its block.
   With `HFreeKeepsWellFormed`, freeing the block keeps the list well formed.
   */
  lemma HMallocReadyToFree(h: Heap, request: nat, page: int)
    requires HeaderBytes <= request && IsSmall(request)
    requires WellFormed(h.freeList) && Fits(h.freeList, PageNode(page))
    ensures ReadyToFree(HMalloc(h, request, page), request)
  {
    HMallocRecordsRequest(h, request, page);
    HMallocKeepsWellFormed(h, request, page);
    HMallocBlockClear(h, request, page);
    ReadyToFreeIntro(HMalloc(h, request, page), request);
  }

  lemma HMallocRecordsRequest(h: Heap, request: nat, page: int)
    requires IsSmall(request)
    ensures var m := HMalloc(h, request, page);
      m.1 - HeaderBytes in m.0.headers && m.0.headers[m.1 - HeaderBytes] == request
  {
  }

  lemma ReadyToFreeIntro(m: (Heap, int), request: int)
    requires m.1 - HeaderBytes in m.0.headers && m.0.headers[m.1 - HeaderBytes] == request
    requires WellFormed(m.0.freeList) && Fits(m.0.freeList, Node(m.1 - HeaderBytes, request - HeaderBytes))
    ensures ReadyToFree(m, request)
  {
  }

  /**
   Allocation and release of a small request route the same way: the block comes back
   as a free node at its header whose size is the request less the 8-byte header, so
   that it covers the header and payload exactly; nothing is unmapped, and each call
   bumps its own counter once.
   */
  lemma HFreeAfterHMallocSmall(h: Heap, request: nat, page: int)
    requires request >= HeaderBytes && IsSmall(request)
    ensures var m := HMalloc(h, request, page);
      m.1 - HeaderBytes in m.0.headers && m.0.headers[m.1 - HeaderBytes] == request < PageSize
    ensures var m := HMalloc(h, request, page);
      var h2 := HFree(m.0, m.1);
      && h2.stats.chunksAllocated == h.stats.chunksAllocated + 1
      && h2.stats.chunksFreed == h.stats.chunksFreed + 1
      && h2.stats.pagesUnmapped == h.stats.pagesUnmapped
      && h2.freeList == InsertNode(m.0.freeList, Node(m.1 - HeaderBytes, request - HeaderBytes))
  {
    HMallocRecordsRequest(h, request, page);
    HFreeSmall(h, HMalloc(h, request, page), request);
  }

  /**
   `hfree` of a block whose header records a small `request`, in a heap one allocation
   past `h`, links in the node the block covers and bumps only `chunks_freed`.
   */
  lemma HFreeSmall(h: Heap, m: (Heap, int), request: int)
    requires m.1 - HeaderBytes in m.0.headers && m.0.headers[m.1 - HeaderBytes] == request
    requires HeaderBytes <= request < PageSize
    requires m.0.stats.chunksAllocated == h.stats.chunksAllocated + 1
    requires m.0.stats.chunksFreed == h.stats.chunksFreed
    requires m.0.stats.pagesUnmapped == h.stats.pagesUnmapped
    ensures var h2 := HFree(m.0, m.1);
      && h2.stats.chunksAllocated == h.stats.chunksAllocated + 1
      && h2.stats.chunksFreed == h.stats.chunksFreed + 1
      && h2.stats.pagesUnmapped == h.stats.pagesUnmapped
      && h2.freeList == InsertNode(m.0.freeList, Node(m.1 - HeaderBytes, request - HeaderBytes))
  {
  }


  /**
   Allocation and release of a large request route the same way: release unmaps
   exactly the pages allocation mapped, the free list is untouched, and each call
   bumps its own counter once.
   */
  lemma HFreeAfterHMallocLarge(h: Heap, request: nat, page: int)
    requires !IsSmall(request) && request + HeaderBytes < SizeLimit
    ensures var m := HMalloc(h, request, page);
      && m.0.headers[m.1 - HeaderBytes] >= PageSize
      && var h2 := HFree(m.0, m.1);
      && h2.stats.chunksAllocated == h.stats.chunksAllocated + 1
      && h2.stats.chunksFreed == h.stats.chunksFreed + 1
      && h2.stats.pagesUnmapped - h.stats.pagesUnmapped == m.0.stats.pagesMapped - h.stats.pagesMapped
      && h2.freeList == h.freeList
  {
    HMallocLargeRecords(h, request, page);
    var m := HMalloc(h, request, page);
    var recorded := m.0.headers[m.1 - HeaderBytes];
    assert DivUp(recorded, PageSize) == recorded / PageSize;
  }

  /**
   `hgetstats`: coalesce the list, then record its length. The list keeps its bytes and
   never grows; every other counter is untouched.
   */
  function HGetStats(h: Heap): (r: Heap)
    ensures r.freeList == Coalesce(h.freeList)
    ensures r.stats.freeLength == |r.freeList| == |h.freeList| - AdjacentPairs(h.freeList) <= |h.freeList|
    ensures Coalesced(r.freeList) && Bytes(r.freeList) == Bytes(h.freeList)
    ensures NonNegative(h.freeList) ==> forall x :: Covered(r.freeList, x) <==> Covered(h.freeList, x)
    ensures r.headers == h.headers
    ensures r.stats.(freeLength := h.stats.freeLength) == h.stats
  {
    var (len, list) := FreeListLength(h.freeList);
    h.(freeList := list, stats := h.stats.(freeLength := len))
  }

  /**
   `hrealloc` as written: it reads the old size as an `int`, allocates, then pushes the
   old block onto the free list itself instead of calling `hfree`, so `chunks_freed`
   never moves and a page-backed block is never unmapped.
   */
  function HRealloc(h: Heap, prev: int, bytes: nat, page: int): (r: (Heap, int))
    requires prev - HeaderBytes in h.headers && h.headers[prev - HeaderBytes] <= IntMax
    requires bytes + HeaderBytes < SizeLimit
    ensures r.0.stats.chunksAllocated == h.stats.chunksAllocated + 1
    ensures r.0.stats.chunksFreed == h.stats.chunksFreed
    ensures r.0.stats.pagesUnmapped == h.stats.pagesUnmapped
    ensures r.1 == HMalloc(h, bytes, page).1
    ensures r.0.stats.pagesMapped == HMalloc(h, bytes, page).0.stats.pagesMapped
    ensures r.0.headers == HMalloc(h, bytes, page).0.headers
    ensures r.0.freeList
      == InsertNode(HMalloc(h, bytes, page).0.freeList, Node(prev - HeaderBytes, h.headers[prev - HeaderBytes] - HeaderBytes))
    ensures Bytes(r.0.freeList) == Bytes(HMalloc(h, bytes, page).0.freeList) + HeaderBytes + h.headers[prev - HeaderBytes]
  {
    var prevSize := h.headers[prev - HeaderBytes];
    var (h1, p) := HMalloc(h, bytes, page);
    var n := Node(prev - HeaderBytes, prevSize - HeaderBytes);
    (h1.(freeList := InsertNode(h1.freeList, n)), p)
  }

  /**
   Where `hrealloc` puts the old block: the list it leaves covers exactly the bytes of
   the list `hmalloc` left plus the range from `prev - 8` up to `prev + recorded`, where
   `recorded` is the size word in front of `prev`. For a block carved from a page the
   word holds the payload, so the range is the block itself, header included. Nothing
   else is freed and no gap is closed.
   */
  lemma HReallocCover(h: Heap, prev: int, bytes: nat, page: int, x: int)
    requires prev - HeaderBytes in h.headers && HeaderBytes <= h.headers[prev - HeaderBytes] <= IntMax
    requires bytes + HeaderBytes < SizeLimit
    requires NonNegative(HMalloc(h, bytes, page).0.freeList)
    ensures Covered(HRealloc(h, prev, bytes, page).0.freeList, x)
      <==> Covered(HMalloc(h, bytes, page).0.freeList, x) || prev - HeaderBytes <= x < prev + h.headers[prev - HeaderBytes]
  {
    InsertNodeCover(HMalloc(h, bytes, page).0.freeList, Node(prev - HeaderBytes, h.headers[prev - HeaderBytes] - HeaderBytes), x);
  }

  /**
   A block `hmalloc` mapped from whole pages records the mapping's full length, header
   included, so `hrealloc`'s node (its size the recorded value less 8, placed at
   `prev - 8`) ends 8 bytes past the mapping: the first byte after the mapping is left
   on the free list.
   */
  lemma HReallocLargeOverrun(h: Heap, prev: int, bytes: nat, page: int)
    requires prev - HeaderBytes in h.headers && PageSize <= h.headers[prev - HeaderBytes] <= IntMax
    requires bytes + HeaderBytes < SizeLimit
    requires NonNegative(HMalloc(h, bytes, page).0.freeList)
    ensures var mappingEnd := prev - HeaderBytes + h.headers[prev - HeaderBytes];
      Covered(HRealloc(h, prev, bytes, page).0.freeList, mappingEnd)
  {
    HReallocCover(h, prev, bytes, page, prev - HeaderBytes + h.headers[prev - HeaderBytes]);
  }
}

=== FILE: powers.dfy ===
/**
 Integer powers of two and the integer base-2 logarithm. Both allocators size their
 blocks in powers of two; the arena computes `log(n) / log(2)` in floating point and
 truncates, which on the class sizes is the floor of the base-2 logarithm modelled here.
 */
module Powers {

  /** The page size both allocators map memory in: `2^12` bytes. */
  const PageSize: int := 4096

  function Pow2(k: nat): (r: nat)
    ensures r >= 1
  {
    if k == 0 then 1 else 2 * Pow2(k - 1)
  }

  /** True iff `n` is 1, 2, 4, 8, ... */
  predicate IsPow2(n: int)
    decreases if n < 0 then 0 else n
  {
    n == 1 || (n >= 2 && n % 2 == 0 && IsPow2(n / 2))
  }

  /** The floor of the base-2 logarithm of a positive integer. */
  function Log2(n: int): (r: nat)
    requires n >= 1
    ensures Pow2(r) <= n < 2 * Pow2(r)
  {
    if n == 1 then 0 else 1 + Log2(n / 2)
  }

  lemma {:induction false} Pow2Monotone(a: nat, b: nat)
    requires a <= b
    ensures Pow2(a) <= Pow2(b)
    decreases b
  {
    if a < b {
      Pow2Monotone(a, b - 1);
    }
  }

  /** The logarithm is determined by the power-of-two interval a number falls in. */
  lemma {:induction false} Log2Unique(n: int, k: nat)
    requires Pow2(k) <= n < 2 * Pow2(k)
    ensures Log2(n) == k
  {
    if k > 0 {
      Log2Unique(n / 2, k - 1);
    }
  }

  lemma Log2OfPow2(k: nat)
    ensures Log2(Pow2(k)) == k
  {
    Log2Unique(Pow2(k), k);
  }

  lemma {:induction false} Pow2IsPow2(k: nat)
    ensures IsPow2(Pow2(k))
  {
    if k > 0 {
      Pow2IsPow2(k - 1);
      assert Pow2(k) / 2 == Pow2(k - 1);
    }
  }

  /** A power of two is exactly two to the power of its logarithm. */
  lemma {:induction false} IsPow2Exact(n: int)
    requires IsPow2(n)
    ensures n >= 1 && Pow2(Log2(n)) == n
    decreases if n < 0 then 0 else n
  {
    if n != 1 {
      IsPow2Exact(n / 2);
    }
  }
}

=== FILE: rounding.dfy ===
/**
 The integer helpers of par_malloc.c: `round_power_of_two`, `round_down_two`,
 `round_up_nearest_page` and `get_bucket`, with the size-class mapping they induce.
 Each loop of the source is a recursive function over the loop variable.
 */
module Rounding {
  import opened Powers

  /** Largest value of a C `long`. */
  const LongMax: int := 0x7FFF_FFFF_FFFF_FFFF

  /** Up to 2^62 the doubling in `round_power_of_two` cannot overflow a `long`. */
  const RoundLimit: int := 0x4000_0000_0000_0000

  /** The smallest and largest size classes, and the split floor of the arena. */
  const MinClass: int := 8
  const MaxClass: int := 8192

  /** A power of two above `2^k` is at least `2^(k+1)`. */
  lemma Pow2Gap(r: int, k: nat)
    requires IsPow2(r) && Pow2(k) < r
    ensures Pow2(k + 1) <= r
  {
    IsPow2Exact(r);
    var e := Log2(r);
    if e <= k {
      Pow2Monotone(e, k);
    } else {
      Pow2Monotone(k + 1, e);
    }
  }

  lemma DoubleIsPow2(n: int)
    requires IsPow2(n)
    ensures IsPow2(2 * n)
  {
    assert (2 * n) / 2 == n;
  }

  /** The loop of `round_power_of_two`: double `ii` while it is below `num`. */
  function GrowToCover(ii: int, num: int): (r: int)
    requires ii >= MinClass && IsPow2(ii) && num <= RoundLimit
    decreases num - ii
    ensures IsPow2(r) && r >= ii && r >= num
    ensures r == ii || r / 2 < num
  {
    if ii < num then
      DoubleIsPow2(ii);
      GrowToCover(ii * 2, num)
    else ii
  }

  /**
   `round_power_of_two`: the smallest power of two that is at least `num` and at
   least 8.
   */
  function RoundPowerOfTwo(num: int): (r: int)
    requires num <= RoundLimit
    ensures IsPow2(r) && r >= MinClass && r >= num
    ensures r == MinClass || r / 2 < num
  {
    assert IsPow2(8) by {
      assert IsPow2(4) && IsPow2(2) && IsPow2(1);
    }
    GrowToCover(MinClass, num)
  }

  /** The loop of `round_down_two`: halve `ii` while it exceeds `num`. */
  function ShrinkToFit(ii: int, num: int): (r: int)
    requires IsPow2(ii) && num >= 1
    decreases ii
    ensures IsPow2(r) && r <= ii && r <= num
    ensures r == ii || 2 * r > num
  {
    if ii > num then ShrinkToFit(ii / 2, num) else ii
  }

  /**
   `round_down_two`: the largest power of two that is at most `num`, capped at 8192.
   From a remainder of at least 40 bytes it never yields less than 32.
   */
  function RoundDownTwo(num: int): (r: int)
    requires num >= 1
    ensures IsPow2(r) && r <= num && r <= MaxClass
    ensures r == MaxClass || 2 * r > num
    ensures num >= 40 ==> r >= 32
  {
    assert IsPow2(MaxClass) by {
      Pow2IsPow2(13);
    }
    var r := ShrinkToFit(MaxClass, num);
    if num >= 40 && r != MaxClass then
      HalfAboveForty(r);
      r
    else r
  }

  lemma HalfAboveForty(r: int)
    requires IsPow2(r) && 2 * r > 40
    ensures r >= 32
  {
    assert Pow2(4) == 16;
    Pow2Gap(r, 4);
  }

  /** The loop of `round_up_nearest_page`: add a page while `init` is below `num`. */
  function AddPages(init: int, num: int): (r: int)
    requires init >= PageSize && init % PageSize == 0 && num <= LongMax - (PageSize - 1)
    decreases num - init
    ensures r % PageSize == 0 && r >= init && r >= num
    ensures r == init || r - PageSize < num
  {
    if init < num then AddPages(init + PageSize, num) else init
  }

  /** `round_up_nearest_page`: the least multiple of 4096 that is at least `num` and at least 4096. */
  function RoundUpNearestPage(num: int): (r: int)
    requires num <= LongMax - (PageSize - 1)
    ensures r % PageSize == 0 && r >= PageSize && r >= num
    ensures r == PageSize || r - PageSize < num
  {
    AddPages(PageSize, num)
  }

  /** `get_bucket`: the floor of log2(byte), minus 3. */
  function GetBucket(byte: int): (i: int)
    requires byte >= 1
    ensures i >= -3 && Pow2(i + 3) <= byte < 2 * Pow2(i + 3)
  {
    Log2(byte) - 3
  }

  /** The bucket a class size maps to: `get_bucket(2^(i+3)) == i`. */
  lemma GetBucketOfClass(i: nat)
    ensures GetBucket(Pow2(i + 3)) == i
  {
    Log2OfPow2(i + 3);
  }

  /** A power of two from 8 to 8192 names one of the 11 buckets, and its size is that class's. */
  lemma GetBucketOfPow2(size: int)
    requires IsPow2(size) && MinClass <= size <= MaxClass
    ensures 0 <= GetBucket(size) <= 10
    ensures Pow2(GetBucket(size) + 3) == size
  {
    IsPow2Exact(size);
    assert Pow2(3) == 8 && Pow2(13) == 8192;
    var e := Log2(size);
    if e > 13 {
      Pow2Monotone(14, e);
    }
  }

  /** `get_bucket(round_power_of_two(bytes))`: the bucket a request of `bytes` is served from. */
  function Classify(bytes: int): (i: int)
    requires bytes <= RoundLimit
    ensures i >= 0
    ensures Pow2(i + 3) == RoundPowerOfTwo(bytes) >= bytes
  {
    var r := RoundPowerOfTwo(bytes);
    ClassLog(r);
    GetBucket(r)
  }

  lemma ClassLog(r: int)
    requires IsPow2(r) && r >= MinClass
    ensures Log2(r) >= 3 && Pow2(Log2(r)) == r
  {
    IsPow2Exact(r);
    assert Pow2(3) == 8;
  }

  /**
   Requests up to 8 bytes take bucket 0; a request above 2^k and at most 2^(k+1),
   for k >= 3, takes bucket k - 2 (the request is rounded up first).
   */
  lemma ClassifyBand(s: int, k: nat)
    requires 3 <= k && s <= RoundLimit
    requires Pow2(k) < s <= Pow2(k + 1)
    ensures Classify(s) == k - 2
  {
    var r := RoundPowerOfTwo(s);
    Pow2Gap(r, k);
    Pow2Monotone(3, k);
    assert Pow2(3) == 8;
    assert r / 2 < s;
    assert r < 2 * Pow2(k + 1);
    Log2Unique(r, k + 1);
    IsPow2Exact(r);
  }

  lemma ClassifySmall(s: int)
    requires s <= MinClass
    ensures Classify(s) == 0
  {
    Log2OfPow2(3);
  }

  /** A request of 8192 bytes is served from the top bucket; 8193 bytes falls past it. */
  lemma ClassifyBoundary()
    ensures Classify(MaxClass) == 10
    ensures Classify(MaxClass + 1) == 11
  {
    assert Pow2(12) == 4096 && Pow2(13) == 8192 && Pow2(14) == 16384;
    ClassifyBand(MaxClass, 12);
    ClassifyBand(MaxClass + 1, 13);
  }
}

=== FILE: wrappers.dfy ===
/** Failure-carrying wrappers shared by both allocator models. */
module Wrappers {

  /** A value that may be absent: the model's stand-in for a NULL pointer. */
  datatype Option<T> = None | Some(value: T)

  /** The outcome of an operation that may terminate the process with `exit(status)`. */
  datatype Result<+T> = Ok(value: T) | Exit(status: int)
}
